=== FILE: README.md ===
# Terminal core of Bitburner, modelled in Dafny

This project models the `Terminal` class of Bitburner (`src/Terminal/Terminal.ts`), the in-game shell. It proves properties of that model.

The terminal is a single-threaded state machine. Its state has five parts:
- an optional timed action;
- the command history and its cursor;
- the bounded output log;
- the `contractOpen` flag;
- the current directory.

The model treats the terminal, the server registry (hostname to server), the player and the interactive tutorial together as one immutable `World`. Each operation is a pure function from one `World` to the next.

A thrown `Error` becomes the `Fault` case of `Outcome`. The calls the terminal makes into code outside this model are inputs:
- the hacking formulas, growth, `fortify` and `weaken`, as the `Formulas` record;
- the game constants and settings, as the `Constants` record;
- the `Math.random()` sample, as `rand`;
- the command parser, `isFilePath`, the tutorial's step advance and the command handlers, as the `Services` record;
- the coding-contract prompt's answer, as a `PromptResult`.

Files, one module each:

- `results.dfy` (`Results`): `Option` and `Outcome`.
- `outputlog.dfy` (`OutputLog`): the bounded log behind `append`, with a window-based reference definition.
- `state.dfy` (`TerminalState`): the entities (servers, player, timer, terminal, tutorial, output records), `clear` and `prestige`.
- `resolvers.dfy` (`Resolvers`): `finishHack`, `finishGrow`, `finishWeaken`, `finishBackdoor`, `finishAnalyze`, and the hack money arithmetic.
- `actions.dfy` (`Actions`): `startAction`, the five `start*` commands, `finishAction`, `process`, and the clock run over many ticks.
- `tutorial.dfy` (`TutorialGate`): the tutorial's step switch, and the same gate as a table.
- `dispatch.dfy` (`Dispatch`): `executeCommands` and `executeCommand`. This covers history, the busy refusal, the tutorial gate, run-by-path and the case-insensitive command table.
- `contracts.dfy` (`Contracts`): `runContract`, split at the prompt into `OpenContract` and `Settle`.
- `scan.dfy` (`ScanAnalyze`): `executeScanAnalyzeCommand`. It is an imperative depth-first walk with an explicit server stack and a parallel depth stack.

Cancellation follows the code. Every resolver returns at once when `cancelled` is set (Terminal.ts:192, 248, 272, 293, 316). So a cancelled hack, grow or weaken changes no server and no player. A finish cancelled this way only prints the progress line and "Cancelled".

## Model

| member | source | states |
|---|---|---|
| OutputLog.Window | src/Terminal/Terminal.ts:107-113 | Reference definition of the bounded log: the last `cap` records of a sequence, in order, or all of it when it is short enough. |
| OutputLog.Append | src/Terminal/Terminal.ts:107-113 | `append`: the log grows by one until it reaches the capacity, then stays at the capacity. The new item is last. The survivors are the most recent earlier records, in their original order. |
| OutputLog.AppendIsWindow | src/Terminal/Terminal.ts:107-113 | One `append` equals the reference window over the log followed by the item. |
| OutputLog.AppendAll | src/Terminal/Terminal.ts:107-113 | Appending a non-empty batch one record at a time leaves all of the records, or exactly `cap` of them, with the batch's last item as the newest record. |
| OutputLog.AppendAllKeepsNewest | src/Terminal/Terminal.ts:107-113 | Any number of successive appends leave exactly the window of the last `cap` records of everything appended (proved by induction over the batch). |
| OutputLog.AppendAllBounded | src/Terminal/Terminal.ts:107-113 | A log within its capacity stays within it under any batch of appends, with its exact resulting length. |
| TerminalState.Say | src/Terminal/Terminal.ts:115-137 | `print`, `error` and the other styled writers: the new line is the newest log entry, and nothing but the log changes. |
| TerminalState.Clear | src/Terminal/Terminal.ts:573-577 | `clear` leaves the version banner as the only line and changes nothing else in the terminal. |
| TerminalState.Prestige | src/Terminal/Terminal.ts:579-582 | `prestige` drops the action without resolving it and clears the log. History, cursor, contract flag and directory are kept. |
| Resolvers.HackMoney | src/Terminal/Terminal.ts:216-221 | The hacked amount is never negative. When positive, it is the floor of available money times percentage times multiplier. It is zero exactly when that product is below 1. |
| Resolvers.HackMoneyExample | src/Terminal/Terminal.ts:216-221 | Hacking 10% of 1000 at multiplier 1 yields 100. |
| Resolvers.ResolveHack | src/Terminal/Terminal.ts:191-245 | `finishHack`: cancelled means no effect. A hacknet server gets only the error line. Any other non-standard server faults, and only then. Money is conserved between server and player and never flows to the server. |
| Resolvers.HackSuccessTransfersMoney | src/Terminal/Terminal.ts:205-238 | On success outside the world daemon, the server loses exactly the floored amount and the player gains it. The player also gains the success exp. The backdoor is installed, security is fortified after the drain, and the faction check fires. |
| Resolvers.HackFailureGrantsQuarterExp | src/Terminal/Terminal.ts:201-243 | On failure no money moves, the server is untouched, and the exp granted is a quarter of the success exp. |
| Resolvers.HackOfWorldDaemon | src/Terminal/Terminal.ts:207-211 | A successful hack of the world daemon only installs the backdoor and jumps to the BitVerse: no money, no exp, no lines. |
| Resolvers.ResolveGrow | src/Terminal/Terminal.ts:247-269 | `finishGrow`: cancelled means no effect. A hacknet server gets only the error line. Any other non-standard server faults, and only then. On a standard server only money and security change, to the money and security the 25-thread growth returns. The player only gains the hacking exp. The two lines report the growth and the security change from the old value to the new one. |
| Resolvers.ResolveWeaken | src/Terminal/Terminal.ts:271-290 | `finishWeaken`: cancelled means no effect. A hacknet server gets only the error line. Any other non-standard server faults, and only then. On a standard server only security changes, to the weakened value. The player only gains the hacking exp. One line reports old and new security, the minimum and the exp. |
| Resolvers.ResolveBackdoor | src/Terminal/Terminal.ts:292-313 | `finishBackdoor`: cancelled means no effect. A hacknet server gets only the error line. Any other non-standard server faults, and only then. On the world daemon the backdoor is installed, a missing BitNode becomes 1, the BitVerse jump fires, and nothing is printed. On any other standard server the backdoor is installed, the success line is printed and the faction check fires. |
| Resolvers.AnalyzeReport | src/Terminal/Terminal.ts:315-350 | The report has 17 lines for a standard server and 6 otherwise. Root access is implied for hacknet servers. Scripts can run exactly with root access and some RAM. Money is shown only for standard servers. The five ports appear in order with their open state. |
| Resolvers.ResolveAnalyze | src/Terminal/Terminal.ts:315-350 | `finishAnalyze` never changes server or player. It prints exactly when not cancelled, and then it prints the whole `AnalyzeReport` of the server. |
| Resolvers.Resolve | src/Terminal/Terminal.ts:361-371 | The dispatch on the action kind. Cancelled means no effect for all five kinds. It faults exactly when it is not cancelled, the server is neither standard nor hacknet, and the kind is not analyze. Resolvers never print "Cancelled" themselves. |
| Actions.Elapsed | src/Terminal/Terminal.ts:103 | One tick takes `MilliPerCycle * cycles / 1000` seconds off the timer. That is never negative, and zero for zero cycles. |
| Actions.ElapsedAdds | src/Terminal/Terminal.ts:103 | Counting down `a` cycles and then `b` cycles takes off as much time as `a + b` cycles at once. |
| Actions.StartAction | src/Terminal/Terminal.ts:186-188 | `startAction` replaces any action with a timer at its full duration, of the given kind and target. Nothing else changes. |
| Actions.StartOnCurrent | src/Terminal/Terminal.ts:139-184 | The `start*` commands. A missing current server faults. Analyze prints its line and starts a one-second timer on any server. Nothing else in the world changes. On a standard server, hack and backdoor start a timer of a quarter of the hacking time, and grow and weaken a sixteenth of their own time, targeting the current server. On a hacknet server the other four print the kind's error and start nothing. Any other kind of server faults. Servers, player and tutorial never change. |
| Actions.FinishAction | src/Terminal/Terminal.ts:352-378 | `finishAction` faults exactly in three cases: there is no action and it is not a cancellation, the target is gone from the registry, or the resolver rejects the target's kind. Otherwise the kind's resolver runs on the target and the player, and its server and player replace them. Its hooks fire after the earlier ones. The log receives the progress line, the resolver's lines and "Cancelled" when cancelled. No action remains. |
| Actions.FinishWithoutAction | src/Terminal/Terminal.ts:353-356 | Finalising without an action faults, unless it is a cancellation, which is a no-op. |
| Actions.FinishDropsAction | src/Terminal/Terminal.ts:352-378 | After a finish there is no action. The rest of the terminal except its log is untouched. |
| Actions.FinishPrintsProgressFirst | src/Terminal/Terminal.ts:360-375 | A finish prints the progress line first, and "Cancelled" exactly when cancelled. |
| Actions.FinishCancelledIsInert | src/Terminal/Terminal.ts:352-378 | A cancelled finish (every resolver returns at once when cancelled: lines 192, 248, 272, 293 and 316) changes no server and no player and fires no hook. It prints exactly the progress line and "Cancelled". |
| Actions.CountDown | src/Terminal/Terminal.ts:103 | A tick takes exactly `MilliPerCycle * cycles / 1000` seconds off the remaining time, never increases it, and changes nothing else in the timer. |
| Actions.Process | src/Terminal/Terminal.ts:101-105 | An action still present after `process` was present before. It is the counted-down timer, with at least 0.01 left. |
| Actions.ProcessCountsDown | src/Terminal/Terminal.ts:101-105 | `process` without an action is a no-op. While the counted-down time stays at or above 0.01, it only counts down. |
| Actions.ProcessFinishes | src/Terminal/Terminal.ts:101-105 | Once the counted-down time is below 0.01, `process` is `finishAction(false)` on the counted-down timer, and afterwards no action remains. |
| Actions.ProcessKeepsTimerSane | src/Terminal/Terminal.ts:101-105 | An action present after a tick was present before, with no more time left and at least 0.01 left. Ticks never touch the contract flag, history or directory. |
| Actions.IdleTicks | src/Terminal/Terminal.ts:101-102 | Any number of ticks without an action changes nothing. |
| Actions.FinalisedAtMostOnce | src/Terminal/Terminal.ts:101-105 | Over any sequence of ticks an action is finalised at most once. If it was finalised, there was an action at the start and none at the end. |
| TutorialGate.GateMatchesTable | src/Terminal/Terminal.ts:597-739 | The step switch accepts exactly the command shapes of the step's table, in both directions. Every accepted command advances the tutorial except at the hacking-mechanics step. |
| TutorialGate.Gate | src/Terminal/Terminal.ts:597-739 | A step the terminal does not know rejects every command with "follow the tutorial". "Wrong command" comes only from a two-token command at the connect step. Only the hacking-mechanics step lets a command through without advancing. |
| Dispatch.ToLower | src/Terminal/Terminal.ts:797 | `toLowerCase` as far as a table key can tell: the length is kept, the k-th capital letter becomes the k-th small letter, the Kelvin sign becomes `k`, and every other character is kept. |
| Dispatch.ToLowerIdempotent | src/Terminal/Terminal.ts:797 | Lower-casing a lower-cased name changes nothing. |
| Dispatch.LowerInherited | src/Terminal/Terminal.ts:797 | `Constructor` lower-cases to `constructor`, and `__proto__` is its own lower case. |
| Dispatch.RecordHistory | src/Terminal/Terminal.ts:559-568 | A batch equal to the last entry leaves the history unchanged. Otherwise it becomes the last entry, the oldest entry is dropped beyond 50, and the rest keep their order. The cursor is always the history length, and a history within 50 stays within 50. |
| Dispatch.HistoryExamples | src/Terminal/Terminal.ts:559-568 | Repeating a batch does not duplicate it. Returning to an earlier batch does record it again. |
| Dispatch.Route | src/Terminal/Terminal.ts:584-798 | Everything before a handler runs, with the corrected lookup (see Findings). While an action runs, every command is refused with an error naming it. An empty command does nothing. A missing current server or n00dles faults. Only an admitted command runs anything: no action, a known current server, and the step's table while the tutorial runs. Every admitted command is routed by its first token: a non-string prints an error, a file path goes to `run` with every token, and a table name in any case gets its handler with the remaining tokens. An admitted command advances the tutorial except at the hacking-mechanics step, and only an admitted one does. A command handed on to `run` or a handler has printed nothing. Servers and player are never changed. |
| Dispatch.ByName | src/Terminal/Terminal.ts:744-798 | After the gate, with the corrected lookup: a non-string first token prints "not a valid command", a file path runs by path with every token, a table name in any case gets its handler with the rest, and any other name prints "not found". Only the log changes. |
| Dispatch.UnknownCommandNotFound | src/Terminal/Terminal.ts:744-798 | With the corrected lookup (see Findings), a name that is neither a runnable path nor a table key, in any case, gets the "not found" error and runs nothing. |
| Dispatch.TutorialRejects | src/Terminal/Terminal.ts:592-739 | A command outside the step's table prints the gate's error, does not advance the tutorial and runs nothing. |
| Dispatch.ExecuteCommand | src/Terminal/Terminal.ts:584-800 | `executeCommand` with the corrected lookup (see Findings). While an action runs it only prints the refusal. It faults exactly when routing does. A routed path runs `run` with every token. `clear` and `cls` leave only the banner in the log. Every other table name calls its handler with the remaining tokens. |
| Dispatch.ClearCommandClears | src/Terminal/Terminal.ts:762-763 | `clear` or `cls`, in any case and outside the tutorial, resets the log to the banner and changes nothing else. |
| Dispatch.KelvinRunsKill | src/Terminal/Terminal.ts:797-800 | The name `\u212Aill` (Kelvin sign, then `ill`) runs the `kill` handler with no arguments. |
| Dispatch.LookupAsWritten | src/Terminal/Terminal.ts:752-798 | The table lookup as written finds its own keys exactly. It misses every other name except the two inherited lower-case members. |
| Dispatch.InvokeAsWritten | src/Terminal/Terminal.ts:797-800 | The lookup tail as written: only `__proto__`, in any case, raises. `constructor` does nothing and prints nothing. Any other name outside the table is reported as not found. |
| Dispatch.ConstructorSlipsThrough | src/Terminal/Terminal.ts:797-800 | As written, `Constructor` is not a command, yet it prints no error and changes nothing, and `__proto__` raises. |
| Dispatch.ConstructorNotFound | src/Terminal/Terminal.ts:797-798 | With the table's own keys only, `Constructor` is reported as not found. |
| Dispatch.BusyBatchRefused | src/Terminal/Terminal.ts:570-585 | While an action runs, a whole batch prints one refusal per command, in order. Everything else stays as it was (proved by induction over the batch). |
| Dispatch.BatchWhileBusy | src/Terminal/Terminal.ts:559-585 | `executeCommands` while an action runs only records the batch in the history and refuses each of its commands. |
| Dispatch.ExecuteCommands | src/Terminal/Terminal.ts:559-571 | `executeCommands` records the batch before any command runs. An empty batch only records it, and a fault in the first command ends the batch with that fault. After a successful first command, the remaining commands run in order, each on the world the previous one left. |
| Dispatch.RunAllKeepsHistory | src/Terminal/Terminal.ts:569-570 | When no handler touches the command history, running the batch's commands leaves the history and its cursor as they were. |
| Dispatch.BatchRecordsHistory | src/Terminal/Terminal.ts:559-571 | When no handler touches the command history, a completed batch leaves exactly the history and cursor that recording the batch produced. The batch is recorded once, before its commands. |
| Contracts.OpenContract | src/Terminal/Terminal.ts:439-449 | While a prompt is open, a new one is refused and nothing else changes. A missing current server faults. Otherwise the prompt opens exactly when the contract exists: a missing contract only prints "No such contract", and an existing one sets the flag and opens the prompt for the contract at that path. |
| Contracts.SecondPromptRefused | src/Terminal/Terminal.ts:441-448 | Once a prompt is open, any further call is refused and the flag stays set. |
| Contracts.Settle | src/Terminal/Terminal.ts:451-480 | Every path clears the flag. A contract removed meanwhile only prints its error. Success removes the contract. If there is a reward, success grants it and prints what was granted; otherwise nothing is printed. Failure adds exactly one try. It removes the contract and prints the self-destruct line exactly when the tries reach the maximum, and otherwise prints the tries remaining. Cancelling changes nothing and prints "Contract cancelled". Only success can change the player, and no other contract is touched. |
| Contracts.FailureCountsATry | src/Terminal/Terminal.ts:466-473 | A failure that leaves tries prints and stores one fewer remaining try. |
| Contracts.RunContract | src/Terminal/Terminal.ts:439-481 | `runContract` faults exactly when no prompt is open and the current server is missing. It never touches other servers, the tutorial or the hooks, and keeps the set of hostnames. When the prompt opens, the result's terminal, player and current server are those of `Settle` run on the prompt's answer. `Settle` gets the contracts as the prompt left them, without the contract when a script removed it meanwhile. |
| Contracts.RunContractRestoresFlag | src/Terminal/Terminal.ts:439-481 | `runContract` leaves the flag as it found it: refused with it set, and cleared on every path otherwise. |
| Contracts.VanishedContract | src/Terminal/Terminal.ts:452-456 | A contract removed during the prompt yields only the error. No reward is granted, and it stays gone. |
| ScanAnalyze.Dashes | src/Terminal/Terminal.ts:522 | `n` dashes and nothing else. |
| ScanAnalyze.EntryIndentation | src/Terminal/Terminal.ts:522-531 | An entry's title is indented by exactly `(d-1)*4` dashes, and its RAM line by two more. |
| ScanAnalyze.PushNeighbors | src/Terminal/Terminal.ts:513-517 | The old stack stays below. On top come exactly the neighbours the registry knows, from the last to the first (the reference `Pushed`), each one level deeper. The depth stack moves in lockstep. |
| ScanAnalyze.Step | src/Terminal/Terminal.ts:499-540 | One turn of the loop keeps the walk's invariant. A popped server that was already seen, is too deep, or is hidden without `all` is dropped. Any other is marked visited, recorded as expanded and replaced on the stack by its neighbours. The depths below are kept, and each pushed neighbour is one level deeper. Each turn either marks a new hostname visited or shrinks the stack. It also keeps `Covered`: every neighbour still owed is expanded or waiting on the stack within the bound. |
| ScanAnalyze.Expand | src/Terminal/Terminal.ts:510-539 | Expanding the server on top of the stack keeps the walk's invariant. It marks the server visited, records it as expanded, prints its entry unless it is the start, and replaces it on the stack by its known neighbours. The depths below are kept, and each pushed neighbour is one level deeper. |
| ScanAnalyze.PushedHas | src/Terminal/Terminal.ts:513-517 | Every neighbour the registry knows is among the servers pushed for it. |
| ScanAnalyze.SkipCovers | src/Terminal/Terminal.ts:498-509 | Dropping a server that was seen, is too deep or is hidden leaves every owed neighbour expanded or still pending. |
| ScanAnalyze.ExpandCovers | src/Terminal/Terminal.ts:510-518 | Expanding a server leaves every owed neighbour expanded or pending. This includes the server's own neighbours, pushed one level deeper. |
| ScanAnalyze.Scan | src/Terminal/Terminal.ts:483-541 | The output is the banner followed by one entry per expansion below the start. The start server is expanded first at depth 0 and never printed. No hostname is expanded twice, and nothing deeper than `depth`. Without `all`, purchased non-home servers and hacknet servers are never expanded. Each server below the start neighbours an earlier expansion one level up. The start is expanded first unless `depth` is negative or the start is hidden and `all` is not set. In those two cases nothing is expanded. Every known neighbour of an expansion above `depth` that is not hidden (or with `all`) is expanded too (`Closed`). |
| ScanAnalyze.ExecuteScanAnalyze | src/Terminal/Terminal.ts:483-541 | It faults exactly when the current server is missing. Otherwise only the log changes: it receives the banner and then one entry per expansion below the current server. The expansions carry everything `Scan` promises: they start at the current server, name each hostname once and stay within `depth`. Each has a parent one level up, and the set is closed under owed neighbours. They are empty exactly when `depth` is negative, or when the current server is hidden and `all` is not set. A log within its capacity stays within it. |

## Left out

- Text formatting is not modelled. Output lines are `Msg` constructors carrying raw values: `formatMoney`, `formatRam`, `formatExp`, `formatSecurity`, `formatPercent`, `convertTimeMsToTimeElapsedString` and the progress bar of `getProgressText` are presentation only.
- The hacking formulas, `processSingleServerGrowth`, `server.fortify` and `server.weaken` are not part of this model. They are inputs, so the floor that `weaken` keeps at the minimum difficulty is not stated.
- The values of `CONSTANTS`, `Settings.MaxTerminalCapacity`, `currentNodeMults.ManualHackMoney` and `SpecialServers.WorldDaemon` come from files that are not part of this model. They are fields of `Constants`.
- `Math.random()` is the input `rand`.
- `parseCommand`, `parseCommands`, `isFilePath`, `iTutorialNextStep` and the roughly forty command handlers are not part of this model. They are the inputs in `Services`. A handler's effect on the world is whatever that input returns.
- `getFile`, `getFilepath`, `getScript`, `getTextFile`, `getLitFile`, `cwd`/`setcwd`, `connectToServer` and the other `print`-style wrappers are outside the named core.
- `TerminalEvents.emit`, `TerminalClearEvents.emit`, the React rendering and `Player.terminalCommandHistory`'s aliasing of the history array are outside the model.
- `Router.toBitVerse` and `Engine.checkCounters` are recorded as `Hook` values in the world rather than run.
- `Player.getCurrentServer()` and `GetServer` look servers up by hostname in the registry map. Lookup by IP address is not modelled.
- The timer names its target by hostname, and a target gone from the registry gives the "Missing action target server" fault. The source keeps the server object itself.
- A thrown error is modelled as a `Fault` with no resulting world. The effects the source performs before throwing are not kept: the "Analyzing system..." line, or the progress line printed before a resolver throws.
- `Player.gainMoney`, `gainHackingExp` and `gainIntelligenceExp` are modelled as plain additions to the player's totals. The multipliers, money-source bookkeeping and skill-level updates they perform live in files that are not part of this model.
- Numbers are exact reals. Floating-point rounding and the JavaScript number range are not modelled.
- Dispatch.ToLower: folds `A`-`Z` and the Kelvin sign (U+212A) only. `toLowerCase` also changes other non-ASCII letters. Only U+0130 yields an ASCII letter, as `i` followed by the combining dot U+0307. The dot stays in the result, and no table key contains it, so which table key a name matches is the same. Where `toLowerCase` changes a string's length (U+0130 becomes two characters), the model keeps it.
- The tutorial gate compares tokens with `Str(...)`, and with `Num(2)` for the strict `=== 2` at line 631. The source's loose `==` against its non-numeric literals holds only for that very string.
- The `N/A` alternatives inside the standard-server branch of `finishAnalyze` cannot be reached, because a hacknet server is never a standard server. The report carries the values directly.
- The asynchronous prompt of `runContract` is its answer, plus one input saying whether the contract was removed meanwhile. Other changes made during the prompt, such as tries added by a script, are not modelled.
- Contracts are removed by path rather than by object identity.
- ScanAnalyze.Scan: the contract states what the walk may expand and print, not that it reaches every server within `depth`. The walk is depth-first with a visited set, so a server first reached along a longer path is not expanded again when a shorter path reaches it later. Its neighbours can then be missed even within `depth`, so reachability is not the right promise. The contract promises closure instead: every neighbour of an expansion above `depth` that is not hidden is expanded.
- ScanAnalyze.Scan: treats the visited map as a set of hostnames. The source's `visited` at src/Terminal/Terminal.ts:489-491 is a plain object. Setting `visited["__proto__"] = 0` does not create an entry, and the read at line 506 then returns the inherited prototype, which is truthy. So the source never expands a server with hostname `__proto__`, and when that server is the current one it expands nothing at all. The model expands it like any other server, and `Starts` and `Closed` promise that it does.
- ScanAnalyze.ExecuteScanAnalyze: relays `Scan`'s contract, so the same `__proto__` difference applies.
- Dispatch.ExecuteCommand: it uses the corrected lookup, with the table's own keys only. The lookup as written, where `constructor` does nothing and `__proto__` throws, is `Dispatch.InvokeAsWritten` (see Findings).
- Dispatch.Route: it uses the same corrected lookup as `Dispatch.ExecuteCommand`.
- Resolvers.ResolveWeaken: the weakened security is whatever the `weaken` input returns. The minimum-difficulty floor belongs to `Server.weaken`, which is not part of this model.
- Dispatch.BatchRecordsHistory: assumes that no handler touches the command history. The handlers are outside this model, and `history -c` does clear it.

## Findings

| source | as written | input that shows it | evidently intended | confidence | as-written member | corrected member |
|---|---|---|---|---|---|---|
| src/Terminal/Terminal.ts:752-800 | The command table is a plain object literal, so `commands[name.toLowerCase()]` also finds members every object inherits. `constructor` is the `Object` function: calling it does nothing and prints no error. `__proto__` is an object that is not callable, so the call throws. | The command `Constructor` (or `constructor`) when it is not a file path; the command `__proto__` | Only the table's own keys are commands; any other name gets "Command … not found" | high, not executed | Dispatch.ConstructorSlipsThrough | Dispatch.ConstructorNotFound |

=== FILE: actions.dfy ===
/** The action state machine: at most one timed action, counted down by the
    game clock and finalised exactly once, through the kind's resolver. */
module Actions {
  import opened Results
  import opened TerminalState
  import opened OutputLog
  import opened Resolvers

  /** An action finalises once its remaining time drops below this many seconds. */
  const FinishThreshold: real := 0.01

  /** Seconds of game time that `cycles` clock cycles stand for. */
  function Elapsed(c: Constants, cycles: nat): (dt: real)
    ensures 0.0 <= dt
    ensures cycles == 0 ==> dt == 0.0
    // `MilliPerCycle` milliseconds per cycle, in seconds
    ensures 1000.0 * dt == c.milliPerCycle * cycles as real
  {
    c.milliPerCycle * (cycles as real) / 1000.0
  }

  /** Counting down `a` cycles and then `b` takes off as much as `a + b` at once. */
  lemma ElapsedAdds(c: Constants, a: nat, b: nat)
    ensures Elapsed(c, a + b) == Elapsed(c, a) + Elapsed(c, b)
  {
  }

  /** `startAction`: a new timer at its full duration replaces whatever was there. */
  function StartAction(t: Terminal, n: real, kind: ActionKind, server: Option<string>): (r: Terminal)
    ensures r.action.Some? && r.action.value.timeLeft == r.action.value.time == n
    ensures r.action.value.kind == kind && r.action.value.server == server
    ensures r == t.(action := r.action)
  {
    t.(action := Some(Timer(n, n, kind, server)))
  }

  /** `startHack`, `startGrow`, `startWeaken`, `startBackdoor` and `startAnalyze`:
      the duration comes from the formula services (hack and backdoor take a
      quarter of the hacking time, grow and weaken a sixteenth of theirs,
      analyze one second); only analyze accepts a hacknet server. */
  function StartOnCurrent(w: World, kind: ActionKind, f: Formulas, c: Constants): (r: Outcome<World>)
    ensures w.player.currentServer !in w.servers ==> r.Fault?
    // analyze runs on any server: it prints its line and starts a one-second timer
    ensures kind == Analyze && w.player.currentServer in w.servers ==>
              && r.Ok?
              && r.value.term.action == Some(Timer(1.0, 1.0, Analyze, Some(w.player.currentServer)))
              && r.value.term.outputHistory == Append(w.term.outputHistory, Output(AnalyzingSystem, Primary), c.maxTerminalCapacity)
    ensures kind == Analyze && w.player.currentServer in w.servers ==>
              r == Ok(var w1 := Say(w, AnalyzingSystem, Primary, c);
                      w1.(term := w1.term.(action := Some(Timer(1.0, 1.0, Analyze, Some(w.player.currentServer))))))
    // the other four start a timer on a standard server, for the kind's duration
    ensures kind != Analyze && w.player.currentServer in w.servers && w.servers[w.player.currentServer].kind == Standard ==>
              var s := w.servers[w.player.currentServer];
              var n := if kind == Grow then f.growTime(s, w.player) / 16.0
                       else if kind == Weaken then f.weakenTime(s, w.player) / 16.0
                       else f.hackingTime(s, w.player) / 4.0;
              r == Ok(w.(term := w.term.(action := Some(Timer(n, n, kind, Some(w.player.currentServer))))))
    ensures kind != Analyze && w.player.currentServer in w.servers && w.servers[w.player.currentServer].kind == OtherKind ==>
              r.Fault?
    ensures r.Ok? ==> r.value.servers == w.servers && r.value.player == w.player && r.value.tutorial == w.tutorial
    ensures r.Ok? && r.value.term.action != w.term.action ==>
              && r.value.term.action.Some?
              && var t := r.value.term.action.value;
                 && t.kind == kind && t.time == t.timeLeft
                 && t.server == Some(w.player.currentServer)
                 && (kind == Analyze ==> t.time == 1.0)
    // the other four refuse a hacknet server with an error line and start nothing
    ensures kind != Analyze && w.player.currentServer in w.servers && w.servers[w.player.currentServer].kind == Hacknet ==>
              r == Ok(Say(w, WrongServerKind(Verb(kind)), Error, c))
  {
    if kind == Analyze then
      var w1 := Say(w, AnalyzingSystem, Primary, c);
      if w.player.currentServer !in w.servers then Fault("current server missing from the registry")
      else Ok(w1.(term := StartAction(w1.term, 1.0, Analyze, Some(w.player.currentServer))))
    else if w.player.currentServer !in w.servers then Fault("current server missing from the registry")
    else
      var s := w.servers[w.player.currentServer];
      match s.kind
      case Hacknet => Ok(Say(w, WrongServerKind(Verb(kind)), Error, c))
      case OtherKind => Fault("server should be normal server")
      case Standard =>
        var n := match kind
          case Hack => f.hackingTime(s, w.player) / 4.0
          case Backdoor => f.hackingTime(s, w.player) / 4.0
          case Grow => f.growTime(s, w.player) / 16.0
          case Weaken => f.weakenTime(s, w.player) / 16.0;
        Ok(w.(term := StartAction(w.term, n, kind, Some(w.player.currentServer))))
  }

  function Verb(kind: ActionKind): string
  {
    match kind
    case Hack => "hack"
    case Grow => "grow"
    case Weaken => "weaken"
    case Backdoor => "backdoor"
    case Analyze => "analyze"
  }

  function ProgressLine(t: Timer): Record
  {
    Output(ProgressBar(t.time, t.timeLeft), Primary)
  }

  const CancelledLine: Record := Output(CancelledNote, Primary)

  /** `finishAction`: prints the progress line, runs the kind's resolver, prints
      "Cancelled" when cancelled, and drops the action. */
  function FinishAction(w: World, cancelled: bool, rand: real, f: Formulas, c: Constants): (r: Outcome<World>)
    // a target gone from the registry is a fault
    ensures w.term.action.Some? && (w.term.action.value.server.None? || w.term.action.value.server.value !in w.servers) ==>
              r.Fault?
    // it faults exactly when there is nothing to finish, the target is missing, or the resolver rejects the target's kind
    ensures r.Fault? <==>
              || (w.term.action.None? && !cancelled)
              || (w.term.action.Some? &&
                  var t := w.term.action.value;
                  || t.server.None? || t.server.value !in w.servers
                  || (!cancelled && w.servers[t.server.value].kind == OtherKind && t.kind != Analyze))
    // the resolver sees the target and the player; its results replace them and its hooks fire after the earlier ones
    ensures w.term.action.Some? && r.Ok? ==>
              var t := w.term.action.value;
              var res := Resolve(t.kind, w.servers[t.server.value], w.player, cancelled, rand, f, c);
              && res.Ok?
              && r.value.servers == w.servers[t.server.value := res.value.server]
              && r.value.player == res.value.player
              && r.value.hooks == w.hooks + res.value.hooks
              && r.value.term.action.None?
              && r.value.term.outputHistory
                 == AppendAll(w.term.outputHistory, [ProgressLine(t)] + res.value.lines + (if cancelled then [CancelledLine] else []),
                              c.maxTerminalCapacity)
  {
    if w.term.action.None? then
      if cancelled then Ok(w) else Fault("Finish action called when there was no action")
    else
      var t := w.term.action.value;
      if t.server.None? || t.server.value !in w.servers then Fault("Missing action target server")
      else
        var host := t.server.value;
        match Resolve(t.kind, w.servers[host], w.player, cancelled, rand, f, c)
        case Fault(e) => Fault(e)
        case Ok(res) =>
          var added := [ProgressLine(t)] + res.lines + (if cancelled then [CancelledLine] else []);
          Ok(World(w.term.(action := None, outputHistory := AppendAll(w.term.outputHistory, added, c.maxTerminalCapacity)),
                   w.servers[host := res.server], res.player, w.tutorial, w.hooks + res.hooks))
  }

  /** Without an action, finalising is a fault unless it is a cancellation,
      which is a no-op. */
  lemma FinishWithoutAction(w: World, cancelled: bool, rand: real, f: Formulas, c: Constants)
    requires w.term.action.None?
    ensures !cancelled ==> FinishAction(w, cancelled, rand, f, c).Fault?
    ensures cancelled ==> FinishAction(w, cancelled, rand, f, c) == Ok(w)
  {
  }

  /** A finished action is gone; the rest of the terminal except its log is untouched. */
  lemma FinishDropsAction(w: World, cancelled: bool, rand: real, f: Formulas, c: Constants)
    requires w.term.action.Some? && FinishAction(w, cancelled, rand, f, c).Ok?
    ensures var w' := FinishAction(w, cancelled, rand, f, c).value;
            && w'.term == w.term.(action := None, outputHistory := w'.term.outputHistory)
            && w'.tutorial == w.tutorial
  {
  }

  /** Finalising prints the progress line first, and "Cancelled" exactly when cancelled. */
  lemma FinishPrintsProgressFirst(w: World, cancelled: bool, rand: real, f: Formulas, c: Constants)
    requires w.term.action.Some? && FinishAction(w, cancelled, rand, f, c).Ok?
    ensures exists added: seq<Record> ::
              && 0 < |added|
              && added[0] == ProgressLine(w.term.action.value)
              && (CancelledLine in added <==> cancelled)
              && FinishAction(w, cancelled, rand, f, c).value.term.outputHistory
                 == AppendAll(w.term.outputHistory, added, c.maxTerminalCapacity)
  {
    var t := w.term.action.value;
    var host := t.server.value;
    var res := Resolve(t.kind, w.servers[host], w.player, cancelled, rand, f, c).value;
    var added := [ProgressLine(t)] + res.lines + (if cancelled then [CancelledLine] else []);
    assert added[0] == ProgressLine(t);
    assert ProgressLine(t) != CancelledLine;
    assert CancelledLine in added <==> cancelled;
  }

  /** A cancelled finish changes no server, no player and fires no hook: it
      prints the progress line and "Cancelled" and nothing else. */
  lemma FinishCancelledIsInert(w: World, rand: real, f: Formulas, c: Constants)
    requires w.term.action.Some? && FinishAction(w, true, rand, f, c).Ok?
    ensures var w' := FinishAction(w, true, rand, f, c).value;
            && w'.servers == w.servers
            && w'.player == w.player
            && w'.hooks == w.hooks
            && w'.term.outputHistory
               == AppendAll(w.term.outputHistory, [ProgressLine(w.term.action.value), CancelledLine], c.maxTerminalCapacity)
  {
    var host := w.term.action.value.server.value;
    assert w.servers[host := w.servers[host]] == w.servers;
  }

  /** `process`: one clock tick. */
  function Process(w: World, cycles: nat, rand: real, f: Formulas, c: Constants): (r: Outcome<World>)
    // a surviving action was there before, with at least the threshold left
    ensures r.Ok? && r.value.term.action.Some? ==>
              && w.term.action.Some?
              && r.value.term.action == Some(CountDown(w.term.action.value, c, cycles))
              && FinishThreshold <= r.value.term.action.value.timeLeft
  {
    if w.term.action.None? then Ok(w)
    else
      var counted := w.(term := w.term.(action := Some(CountDown(w.term.action.value, c, cycles))));
      if counted.term.action.value.timeLeft < FinishThreshold then FinishAction(counted, false, rand, f, c)
      else Ok(counted)
  }

  /** The timer after `cycles` cycles have been taken off it. */
  function CountDown(t: Timer, c: Constants, cycles: nat): (r: Timer)
    ensures r.timeLeft <= t.timeLeft
    ensures 1000.0 * (t.timeLeft - r.timeLeft) == c.milliPerCycle * cycles as real
    ensures r == t.(timeLeft := r.timeLeft)
  {
    t.(timeLeft := t.timeLeft - Elapsed(c, cycles))
  }

  /** A tick is a no-op without an action; otherwise, while at least the
      threshold is left, it only counts the timer down. */
  lemma ProcessCountsDown(w: World, cycles: nat, rand: real, f: Formulas, c: Constants)
    ensures w.term.action.None? ==> Process(w, cycles, rand, f, c) == Ok(w)
    ensures w.term.action.Some? && FinishThreshold <= CountDown(w.term.action.value, c, cycles).timeLeft ==>
              Process(w, cycles, rand, f, c) == Ok(w.(term := w.term.(action := Some(CountDown(w.term.action.value, c, cycles)))))
  {
  }

  /** Once less than the threshold is left, the tick finalises the counted-down
      action (not cancelled) and no action remains. */
  lemma ProcessFinishes(w: World, cycles: nat, rand: real, f: Formulas, c: Constants)
    requires w.term.action.Some? && CountDown(w.term.action.value, c, cycles).timeLeft < FinishThreshold
    ensures var counted := w.(term := w.term.(action := Some(CountDown(w.term.action.value, c, cycles))));
            Process(w, cycles, rand, f, c) == FinishAction(counted, false, rand, f, c)
    ensures Process(w, cycles, rand, f, c).Ok? ==> Process(w, cycles, rand, f, c).value.term.action.None?
  {
  }

  /** An action that survives a tick had one before, and its remaining time only shrank
      and stays at or above the threshold; ticks never touch the contract flag,
      the history or the directory. */
  lemma ProcessKeepsTimerSane(w: World, cycles: nat, rand: real, f: Formulas, c: Constants)
    requires Process(w, cycles, rand, f, c).Ok?
    ensures var w' := Process(w, cycles, rand, f, c).value;
            && w'.term.contractOpen == w.term.contractOpen
            && w'.term.commandHistory == w.term.commandHistory
            && w'.term.currDir == w.term.currDir
            && (w'.term.action.Some? ==>
                  && w.term.action.Some?
                  && w'.term.action.value.timeLeft <= w.term.action.value.timeLeft
                  && FinishThreshold <= w'.term.action.value.timeLeft)
  {
    if w.term.action.Some? {
      var counted := w.(term := w.term.(action := Some(CountDown(w.term.action.value, c, cycles))));
      if counted.term.action.value.timeLeft < FinishThreshold {
        FinishDropsAction(counted, false, rand, f, c);
      }
    }
  }

  datatype Tick = Tick(cycles: nat, rand: real)

  /** Runs the clock over a sequence of ticks; also counts the finalisations. */
  function RunTicks(w: World, ticks: seq<Tick>, f: Formulas, c: Constants): Outcome<(World, nat)>
    decreases |ticks|
  {
    if |ticks| == 0 then Ok((w, 0))
    else
      match Process(w, ticks[0].cycles, ticks[0].rand, f, c)
      case Fault(e) => Fault(e)
      case Ok(w1) =>
        var fired := if w.term.action.Some? && w1.term.action.None? then 1 else 0;
        match RunTicks(w1, ticks[1..], f, c)
        case Fault(e) => Fault(e)
        case Ok(res) => Ok((res.0, res.1 + fired))
  }

  /** Ticks without an action change nothing. */
  lemma {:induction false} IdleTicks(w: World, ticks: seq<Tick>, f: Formulas, c: Constants)
    requires w.term.action.None?
    ensures RunTicks(w, ticks, f, c) == Ok((w, 0))
    decreases |ticks|
  {
    if |ticks| > 0 {
      IdleTicks(w, ticks[1..], f, c);
    }
  }

  /** Under any sequence of ticks an action is finalised at most once, and
      once it has been there is no action left. */
  lemma {:induction false} FinalisedAtMostOnce(w: World, ticks: seq<Tick>, f: Formulas, c: Constants)
    requires RunTicks(w, ticks, f, c).Ok?
    ensures RunTicks(w, ticks, f, c).value.1 <= 1
    ensures RunTicks(w, ticks, f, c).value.1 == 1 ==>
              w.term.action.Some? && RunTicks(w, ticks, f, c).value.0.term.action.None?
    decreases |ticks|
  {
    if |ticks| > 0 {
      var w1 := Process(w, ticks[0].cycles, ticks[0].rand, f, c).value;
      if w1.term.action.None? {
        IdleTicks(w1, ticks[1..], f, c);
      } else {
        ProcessKeepsTimerSane(w, ticks[0].cycles, ticks[0].rand, f, c);
        FinalisedAtMostOnce(w1, ticks[1..], f, c);
      }
    }
  }
}

=== FILE: contracts.dfy ===
/** The coding-contract protocol of `runContract`: the `contractOpen` flag
    guards one outstanding prompt; the prompt's answer and anything that
    happened to the contract meanwhile are inputs. */
module Contracts {
  import opened Results
  import opened TerminalState
  import opened OutputLog

  /** The prompt's answer: CodingContractResult.Success, .Failure or .Cancelled. */
  datatype PromptResult = Solved | Failed | Dismissed

  /** What the player service returns for a granted reward: the player after it
      and the text describing it. */
  datatype Granted = Granted(player: Player, text: string)

  /** The protocol before the prompt: refused with a message, or waiting on
      the prompt for `contract`, found at `path` on server `host`. */
  datatype Opened = Refused(world: World) | Awaiting(world: World, host: string, contract: Contract)

  /** The first half of `runContract`, up to the prompt. */
  function OpenContract(w: World, path: string, c: Constants): (r: Outcome<Opened>)
    // a second prompt is refused while one is open, and nothing else changes
    ensures w.term.contractOpen ==> r == Ok(Refused(Say(w, AlreadyInProgress, Error, c)))
    ensures !w.term.contractOpen && w.player.currentServer !in w.servers ==> r.Fault?
    // with the flag clear on a known server, the prompt opens exactly when the contract exists
    ensures !w.term.contractOpen && w.player.currentServer in w.servers ==>
              && r.Ok?
              && (r.value.Awaiting? <==> path in w.servers[w.player.currentServer].contracts)
              && (r.value.Refused? ==> r.value.world == Say(w, NoSuchContract, Error, c))
    ensures r.Ok? && r.value.Refused? ==>
              && r.value.world.term == w.term.(outputHistory := r.value.world.term.outputHistory)
              && r.value.world.servers == w.servers && r.value.world.player == w.player
    ensures r.Ok? && r.value.Awaiting? ==>
              && !w.term.contractOpen
              && r.value.world == w.(term := w.term.(contractOpen := true))
              && r.value.host == w.player.currentServer
              && r.value.host in w.servers
              && path in w.servers[r.value.host].contracts
              && r.value.contract == w.servers[r.value.host].contracts[path]
  {
    if w.term.contractOpen then Ok(Refused(Say(w, AlreadyInProgress, Error, c)))
    else if w.player.currentServer !in w.servers then Fault("current server missing from the registry")
    else
      var serv := w.servers[w.player.currentServer];
      if path !in serv.contracts then Ok(Refused(Say(w, NoSuchContract, Error, c)))
      else Ok(Awaiting(w.(term := w.term.(contractOpen := true)), w.player.currentServer, serv.contracts[path]))
  }

  /** While a prompt is open, another call is refused and the flag stays set. */
  lemma SecondPromptRefused(w: World, path: string, path': string, c: Constants)
    requires OpenContract(w, path, c).Ok? && OpenContract(w, path, c).value.Awaiting?
    ensures var w1 := OpenContract(w, path, c).value.world;
            && w1.term.contractOpen
            && OpenContract(w1, path', c) == Ok(Refused(Say(w1, AlreadyInProgress, Error, c)))
            && OpenContract(w1, path', c).value.world.term.contractOpen
  {
  }

  datatype Settled = Settled(term: Terminal, contracts: map<string, Contract>, player: Player)

  /** The second half of `runContract`, after the prompt, on the contracts of
      the server the prompt was opened on. */
  function Settle(t: Terminal, contracts: map<string, Contract>, player: Player, path: string, contract: Contract,
                  res: PromptResult, grant: (Player, Reward, real) -> Granted, c: Constants): (r: Settled)
    // every path clears the flag and touches nothing else in the terminal but its log
    ensures !r.term.contractOpen
    ensures r.term == t.(contractOpen := false, outputHistory := r.term.outputHistory)
    // a contract removed meanwhile is an expected race: only an error
    ensures path !in contracts ==> r.contracts == contracts && r.player == player
    ensures path in contracts && res == Solved ==> path !in r.contracts
    ensures path in contracts && res == Failed ==>
              && (path in r.contracts <==> contract.tries + 1 < contract.maxTries)
              && (path in r.contracts ==> r.contracts[path] == contract.(tries := contract.tries + 1))
    ensures path in contracts && res == Dismissed ==> r.contracts == contracts
    ensures res != Solved ==> r.player == player
    // a solved contract with a reward grants it and prints what was granted; without one nothing is printed
    ensures path in contracts && res == Solved && contract.reward.Some? ==>
              var g := grant(player, contract.reward.value, contract.difficulty);
              && r.player == g.player
              && r.term.outputHistory == Append(t.outputHistory, Output(ContractReward(g.text), Primary), c.maxTerminalCapacity)
    ensures path in contracts && res == Solved && contract.reward.None? ==>
              r.player == player && r.term.outputHistory == t.outputHistory
    // every other path prints exactly one line
    ensures path !in contracts ==> r.term.outputHistory == Append(t.outputHistory, Output(ContractGone, Error), c.maxTerminalCapacity)
    ensures path in contracts && res == Failed ==>
              r.term.outputHistory
              == Append(t.outputHistory,
                        if contract.tries + 1 < contract.maxTries then Output(TriesRemaining(contract.maxTries - contract.tries - 1), Error)
                        else Output(SelfDestructing, Error),
                        c.maxTerminalCapacity)
    ensures path in contracts && res == Dismissed ==>
              r.term.outputHistory == Append(t.outputHistory, Output(ContractCancelled, Primary), c.maxTerminalCapacity)
    // no other contract is touched
    ensures forall q :: q != path ==> (q in r.contracts <==> q in contracts)
    ensures forall q :: q != path && q in contracts ==> r.contracts[q] == contracts[q]
  {
    var t' := t.(contractOpen := false);
    if path !in contracts then
      Settled(t'.(outputHistory := Append(t.outputHistory, Output(ContractGone, Error), c.maxTerminalCapacity)), contracts, player)
    else
      match res
      case Solved =>
        if contract.reward.Some? then
          var g := grant(player, contract.reward.value, contract.difficulty);
          Settled(t'.(outputHistory := Append(t.outputHistory, Output(ContractReward(g.text), Primary), c.maxTerminalCapacity)),
                  contracts - {path}, g.player)
        else Settled(t', contracts - {path}, player)
      case Failed =>
        var tried := contract.(tries := contract.tries + 1);
        if tried.tries >= tried.maxTries then
          Settled(t'.(outputHistory := Append(t.outputHistory, Output(SelfDestructing, Error), c.maxTerminalCapacity)),
                  contracts - {path}, player)
        else
          Settled(t'.(outputHistory := Append(t.outputHistory, Output(TriesRemaining(tried.maxTries - tried.tries), Error), c.maxTerminalCapacity)),
                  contracts[path := tried], player)
      case Dismissed =>
        Settled(t'.(outputHistory := Append(t.outputHistory, Output(ContractCancelled, Primary), c.maxTerminalCapacity)),
                contracts, player)
  }

  /** A failure leaves the number of tries remaining, as printed, one smaller. */
  lemma FailureCountsATry(t: Terminal, contracts: map<string, Contract>, player: Player, path: string, contract: Contract,
                          grant: (Player, Reward, real) -> Granted, c: Constants)
    requires path in contracts && contract.tries + 1 < contract.maxTries && 0 < c.maxTerminalCapacity
    ensures var r := Settle(t, contracts, player, path, contract, Failed, grant, c);
            && r.term.outputHistory[|r.term.outputHistory| - 1] == Output(TriesRemaining(contract.maxTries - contract.tries - 1), Error)
            && r.contracts[path].maxTries - r.contracts[path].tries == contract.maxTries - contract.tries - 1
  {
  }

  /** The whole of `runContract`: open, wait for the prompt's answer `res`
      (during which a script may remove the contract, when `removedMeanwhile`),
      then settle. */
  function RunContract(w: World, path: string, res: PromptResult, removedMeanwhile: bool,
                       grant: (Player, Reward, real) -> Granted, c: Constants): (r: Outcome<World>)
    // only a missing current server faults, and then only with no prompt open
    ensures r.Fault? <==> !w.term.contractOpen && w.player.currentServer !in w.servers
    // other servers, the tutorial and the hooks are never touched
    ensures r.Ok? ==> r.value.tutorial == w.tutorial && r.value.hooks == w.hooks
    ensures r.Ok? ==> r.value.servers.Keys == w.servers.Keys
    ensures r.Ok? ==> forall h :: h in w.servers && h != w.player.currentServer ==> r.value.servers[h] == w.servers[h]
    // an accepted call settles the prompt's answer on the contracts as the prompt left them
    ensures !w.term.contractOpen && w.player.currentServer in w.servers && path in w.servers[w.player.currentServer].contracts ==>
              var serv := w.servers[w.player.currentServer];
              var contracts := if removedMeanwhile then serv.contracts - {path} else serv.contracts;
              var s := Settle(w.term.(contractOpen := true), contracts, w.player, path, serv.contracts[path], res, grant, c);
              && r.Ok?
              && r.value.term == s.term
              && r.value.player == s.player
              && r.value.servers[w.player.currentServer] == serv.(contracts := s.contracts)
  {
    match OpenContract(w, path, c)
    case Fault(e) => Fault(e)
    case Ok(Refused(w1)) => Ok(w1)
    case Ok(Awaiting(w1, host, contract)) =>
      var serv := w1.servers[host];
      var contracts := if removedMeanwhile then serv.contracts - {path} else serv.contracts;
      var s := Settle(w1.term, contracts, w1.player, path, contract, res, grant, c);
      Ok(w1.(term := s.term, servers := w1.servers[host := serv.(contracts := s.contracts)], player := s.player))
  }

  /** `runContract` leaves the flag as it found it: a call made while a prompt
      is open is refused with the flag still set, and a call made with the flag
      clear ends with it clear on every path. */
  lemma RunContractRestoresFlag(w: World, path: string, res: PromptResult, removedMeanwhile: bool,
                                grant: (Player, Reward, real) -> Granted, c: Constants)
    requires RunContract(w, path, res, removedMeanwhile, grant, c).Ok?
    ensures RunContract(w, path, res, removedMeanwhile, grant, c).value.term.contractOpen == w.term.contractOpen
    ensures w.term.contractOpen ==> RunContract(w, path, res, removedMeanwhile, grant, c) == Ok(Say(w, AlreadyInProgress, Error, c))
  {
  }

  /** A contract removed during the prompt only yields an error; no reward is granted. */
  lemma VanishedContract(w: World, path: string, res: PromptResult, grant: (Player, Reward, real) -> Granted, c: Constants)
    requires !w.term.contractOpen && w.player.currentServer in w.servers
    requires path in w.servers[w.player.currentServer].contracts
    ensures var r := RunContract(w, path, res, true, grant, c);
            && r.Ok?
            && r.value.player == w.player
            && path !in r.value.servers[w.player.currentServer].contracts
            && r.value.term.outputHistory == Append(w.term.outputHistory, Output(ContractGone, Error), c.maxTerminalCapacity)
  {
  }
}

=== FILE: dispatch.dfy ===
/** The command dispatcher: history bookkeeping for a batch, then for each
    command the busy check, the tutorial gate, run-by-path and the
    case-insensitive lookup in the command table. */
module Dispatch {
  import opened Results
  import opened TerminalState
  import opened OutputLog
  import opened TutorialGate

  /** The collaborators the dispatcher calls: the parser, the file-path test,
      the tutorial's step advance and the command handlers. */
  datatype Services = Services(
    parseCommands: string -> seq<string>,
    parseCommand: string -> seq<Token>,
    isFilePath: string -> bool,
    nextStep: Tutorial -> Tutorial,
    handler: (string, seq<Token>, World) -> World)

  /** The keys of the command table. */
  const CommandNames: set<string> := {
    "scan-analyze", "alias", "analyze", "backdoor", "buy", "cat", "cd", "changelog", "check",
    "clear", "cls", "connect", "cp", "download", "expr", "free", "grow", "hack", "help",
    "history", "home", "hostname", "kill", "killall", "ls", "lscpu", "mem", "mv", "nano",
    "ps", "rm", "run", "scan", "scp", "sudov", "tail", "apr1", "top", "unalias", "vim",
    "weaken", "wget"}

  /** The bound on the number of remembered command batches. */
  const HistoryCap: nat := 50

  const Upper: string := "ABCDEFGHIJKLMNOPQRSTUVWXYZ"
  const Lower: string := "abcdefghijklmnopqrstuvwxyz"

  /** U+212A KELVIN SIGN, which `toLowerCase` folds to an ASCII `k`. */
  const Kelvin: char := '\U{212A}'

  /** The lower case of one character, as far as a table key can tell: the
      ASCII capitals and the Kelvin sign are the only characters whose lower
      case is an ASCII letter other than themselves. */
  function LowerChar(ch: char): char
  {
    if 'A' <= ch <= 'Z' then (ch as int + 32) as char
    else if ch == Kelvin then 'k'
    else ch
  }

  /** `toLowerCase`, character by character. */
  function ToLower(s: string): (r: string)
    ensures |r| == |s|
    // the k-th capital becomes the k-th small letter
    ensures forall i, k :: 0 <= i < |s| && 0 <= k < 26 && s[i] == Upper[k] ==> r[i] == Lower[k]
    ensures forall i :: 0 <= i < |s| && s[i] == Kelvin ==> r[i] == 'k'
    // every other character is kept
    ensures forall i :: 0 <= i < |s| && !('A' <= s[i] <= 'Z') && s[i] != Kelvin ==> r[i] == s[i]
  {
    seq(|s|, i requires 0 <= i < |s| => LowerChar(s[i]))
  }

  /** Lower-casing twice is lower-casing once. */
  lemma ToLowerIdempotent(s: string)
    ensures ToLower(ToLower(s)) == ToLower(s)
  {
  }

  /** The history after a batch, and the cursor, which points past its end. */
  function RecordHistory(history: seq<string>, commands: string): (r: (seq<string>, nat))
    ensures r.1 == |r.0|
    ensures 0 < |history| && history[|history| - 1] == commands ==> r.0 == history
    ensures (|history| == 0 || history[|history| - 1] != commands) ==>
              && 0 < |r.0| && r.0[|r.0| - 1] == commands
              && |r.0| == (if |history| < HistoryCap then |history| + 1 else |history|)
              && forall i :: 0 <= i < |r.0| - 1 ==> r.0[i] == history[|history| - (|r.0| - 1) + i]
    ensures |history| <= HistoryCap ==> |r.0| <= HistoryCap
  {
    var h :=
      if 0 < |history| && history[|history| - 1] == commands then history
      else
        var pushed := history + [commands];
        if |pushed| > HistoryCap then pushed[1..] else pushed;
    (h, |h|)
  }

  lemma HistoryExamples()
    ensures RecordHistory(RecordHistory([], "ls").0, "ls").0 == ["ls"]
    ensures RecordHistory(RecordHistory(RecordHistory([], "ls").0, "cd").0, "ls").0 == ["ls", "cd", "ls"]
  {
  }

  /** The command `args` gets past the busy check, the registry check and,
      while the tutorial runs, the step's table. */
  predicate Admitted(w: World, args: seq<Token>)
  {
    && w.term.action.None? && 0 < |args| && w.player.currentServer in w.servers
    && (w.tutorial.isRunning ==>
          "n00dles" in w.servers && args in Accepted(w.tutorial.currStep, w.servers["n00dles"].hostname))
  }

  /** What the dispatcher decided to run for one command. */
  datatype Dispatched = Nothing | RunByPath(args: seq<Token>) | Invoke(key: string, args: seq<Token>)

  datatype Routed = Routed(world: World, dispatched: Dispatched)

  /** Everything `executeCommand` does before it calls a handler. */
  function Route(w: World, command: string, svc: Services, c: Constants): (r: Outcome<Routed>)
    // while an action runs every command is refused with an error naming it
    ensures w.term.action.Some? ==> r == Ok(Routed(Say(w, BusyWith(command), Error, c), Nothing))
    // an empty command does nothing; any other needs the current server to exist
    ensures w.term.action.None? && |svc.parseCommand(command)| == 0 ==> r == Ok(Routed(w, Nothing))
    ensures w.term.action.None? && 0 < |svc.parseCommand(command)| && w.player.currentServer !in w.servers ==> r.Fault?
    // the tutorial needs the server registered as "n00dles"; these are the only faults
    ensures (w.term.action.None? && 0 < |svc.parseCommand(command)| && w.player.currentServer in w.servers &&
             w.tutorial.isRunning && "n00dles" !in w.servers) ==> r.Fault?
    ensures r.Fault? ==> w.player.currentServer !in w.servers || (w.tutorial.isRunning && "n00dles" !in w.servers)
    // only an admitted command runs anything
    ensures r.Ok? && !r.value.dispatched.Nothing? ==> Admitted(w, svc.parseCommand(command))
    // a table handler runs only for a known name, whatever its case
    ensures r.Ok? && r.value.dispatched.Invoke? ==>
              && svc.parseCommand(command)[0].Str?
              && r.value.dispatched.key == ToLower(svc.parseCommand(command)[0].text)
              && r.value.dispatched.key in CommandNames
              && r.value.dispatched.args == svc.parseCommand(command)[1..]
    // and every admitted command is routed by its first token: a non-string is an error,
    // a file path runs with every token, a known name gets its handler with the rest
    ensures var args := svc.parseCommand(command);
            Admitted(w, args) && !args[0].Str? ==>
              && r.Ok? && r.value.dispatched == Nothing
              && r.value.world.term.outputHistory
                 == Append(w.term.outputHistory, Output(NotACommand(args[0]), Error), c.maxTerminalCapacity)
    ensures var args := svc.parseCommand(command);
            Admitted(w, args) && args[0].Str? && svc.isFilePath(args[0].text) ==>
              r.Ok? && r.value.dispatched == RunByPath(args)
    ensures var args := svc.parseCommand(command);
            Admitted(w, args) && args[0].Str? && !svc.isFilePath(args[0].text) && ToLower(args[0].text) in CommandNames ==>
              r.Ok? && r.value.dispatched == Invoke(ToLower(args[0].text), args[1..])
    // an admitted command advances the tutorial, except at the hacking-mechanics step
    ensures Admitted(w, svc.parseCommand(command)) && w.tutorial.isRunning && w.tutorial.currStep != TerminalHackingMechanics ==>
              r.Ok? && r.value.world.tutorial == svc.nextStep(w.tutorial)
    // the tutorial advances only on an accepted command outside the hacking-mechanics step
    ensures r.Ok? && r.value.world.tutorial != w.tutorial ==>
              && w.tutorial.isRunning
              && w.tutorial.currStep != TerminalHackingMechanics
              && r.value.world.tutorial == svc.nextStep(w.tutorial)
    ensures r.Ok? ==> r.value.world.term == w.term.(outputHistory := r.value.world.term.outputHistory)
    // a command that is handed on has printed nothing yet
    ensures r.Ok? && !r.value.dispatched.Nothing? ==> r.value.world.term == w.term
    ensures r.Ok? ==> r.value.world.servers == w.servers && r.value.world.player == w.player
  {
    if w.term.action.Some? then Ok(Routed(Say(w, BusyWith(command), Error, c), Nothing))
    else
      var args := svc.parseCommand(command);
      if |args| == 0 then Ok(Routed(w, Nothing))
      else if w.player.currentServer !in w.servers then Fault("current server missing from the registry")
      else if w.tutorial.isRunning && "n00dles" !in w.servers then Fault("Could not get n00dles server")
      else
        var verdict := if w.tutorial.isRunning then Gate(w.tutorial.currStep, args, w.servers["n00dles"].hostname) else Accept(false);
        assert verdict.Accept? <==> Admitted(w, args) by {
          if w.tutorial.isRunning {
            GateMatchesTable(w.tutorial.currStep, args, w.servers["n00dles"].hostname);
          }
        }
        assert verdict.Accept? ==> verdict.advance == (w.tutorial.isRunning && w.tutorial.currStep != TerminalHackingMechanics) by {
          if w.tutorial.isRunning {
            GateMatchesTable(w.tutorial.currStep, args, w.servers["n00dles"].hostname);
          }
        }
        if verdict.Reject? then Ok(Routed(Say(w, verdict.msg, Error, c), Nothing))
        else
          var w1 := if verdict.advance then w.(tutorial := svc.nextStep(w.tutorial)) else w;
          Ok(ByName(w1, args, svc, c))
  }

  /** The tail of `executeCommand` once a command is admitted: its first token
      picks run-by-path, a table handler, or an error. */
  function ByName(w: World, args: seq<Token>, svc: Services, c: Constants): (r: Routed)
    requires 0 < |args|
    ensures r.world == w.(term := w.term.(outputHistory := r.world.term.outputHistory))
    ensures !args[0].Str? ==> r == Routed(Say(w, NotACommand(args[0]), Error, c), Nothing)
    ensures args[0].Str? && svc.isFilePath(args[0].text) ==> r == Routed(w, RunByPath(args))
    ensures args[0].Str? && !svc.isFilePath(args[0].text) && ToLower(args[0].text) in CommandNames ==>
              r == Routed(w, Invoke(ToLower(args[0].text), args[1..]))
    ensures args[0].Str? && !svc.isFilePath(args[0].text) && ToLower(args[0].text) !in CommandNames ==>
              r == Routed(Say(w, CommandNotFound(args[0].text), Error, c), Nothing)
  {
    var name := args[0];
    if !name.Str? then Routed(Say(w, NotACommand(name), Error, c), Nothing)
    else if svc.isFilePath(name.text) then Routed(w, RunByPath(args))
    else if ToLower(name.text) in CommandNames then Routed(w, Invoke(ToLower(name.text), args[1..]))
    else Routed(Say(w, CommandNotFound(name.text), Error, c), Nothing)
  }

  /** A name that is neither a runnable path nor in the table, in any case,
      gets a "not found" error and runs nothing. */
  lemma UnknownCommandNotFound(w: World, command: string, svc: Services, c: Constants)
    requires w.term.action.None? && !w.tutorial.isRunning && w.player.currentServer in w.servers
    requires 0 < |svc.parseCommand(command)| && svc.parseCommand(command)[0].Str?
    requires !svc.isFilePath(svc.parseCommand(command)[0].text)
    requires ToLower(svc.parseCommand(command)[0].text) !in CommandNames
    ensures Route(w, command, svc, c) == Ok(Routed(Say(w, CommandNotFound(svc.parseCommand(command)[0].text), Error, c), Nothing))
  {
  }

  /** A command the current step rejects prints the gate's error, does not
      advance the tutorial and runs nothing. */
  lemma TutorialRejects(w: World, command: string, svc: Services, c: Constants)
    requires w.term.action.None? && w.tutorial.isRunning && "n00dles" in w.servers && w.player.currentServer in w.servers
    requires 0 < |svc.parseCommand(command)|
    requires svc.parseCommand(command) !in Accepted(w.tutorial.currStep, w.servers["n00dles"].hostname)
    ensures Gate(w.tutorial.currStep, svc.parseCommand(command), w.servers["n00dles"].hostname).Reject?
    ensures Route(w, command, svc, c).Ok?
    ensures var r := Route(w, command, svc, c).value;
            && r.dispatched == Nothing
            && r.world.tutorial == w.tutorial
            && r.world == Say(w, Gate(w.tutorial.currStep, svc.parseCommand(command), w.servers["n00dles"].hostname).msg, Error, c)
  {
    GateMatchesTable(w.tutorial.currStep, svc.parseCommand(command), w.servers["n00dles"].hostname);
  }

  /** `executeCommand`: route, then call the chosen handler (`clear` and `cls`
      clear the terminal; a runnable path goes to `run` with every token). */
  function ExecuteCommand(w: World, command: string, svc: Services, c: Constants): (r: Outcome<World>)
    ensures w.term.action.Some? ==> r == Ok(Say(w, BusyWith(command), Error, c))
    ensures r.Fault? <==> Route(w, command, svc, c).Fault?
    // after routing: nothing more, `run` with every token, the clearing built-ins, or the table's handler
    ensures Route(w, command, svc, c).Ok? ==>
              var w1 := Route(w, command, svc, c).value.world;
              var d := Route(w, command, svc, c).value.dispatched;
              && (d.Nothing? ==> r == Ok(w1))
              && (d.RunByPath? ==> r == Ok(svc.handler("run", d.args, w1)))
              && (d.Invoke? && (d.key == "clear" || d.key == "cls") ==>
                    r.Ok? && r.value.term.outputHistory == [Banner] && r.value == w1.(term := w1.term.(outputHistory := [Banner])))
              && (d.Invoke? && d.key != "clear" && d.key != "cls" ==> r == Ok(svc.handler(d.key, d.args, w1)))
  {
    match Route(w, command, svc, c)
    case Fault(e) => Fault(e)
    case Ok(Routed(w1, d)) =>
      match d
      case Nothing => Ok(w1)
      case RunByPath(args) => Ok(svc.handler("run", args, w1))
      case Invoke(key, args) =>
        if key == "clear" || key == "cls" then Ok(w1.(term := Clear(w1.term)))
        else Ok(svc.handler(key, args, w1))
  }

  /** `clear` or `cls`, in any case and outside the tutorial, leaves only the banner in the log. */
  lemma ClearCommandClears(w: World, command: string, svc: Services, c: Constants)
    requires w.term.action.None? && !w.tutorial.isRunning && w.player.currentServer in w.servers
    requires 0 < |svc.parseCommand(command)| && svc.parseCommand(command)[0].Str?
    requires !svc.isFilePath(svc.parseCommand(command)[0].text)
    requires ToLower(svc.parseCommand(command)[0].text) in {"clear", "cls"}
    ensures ExecuteCommand(w, command, svc, c) == Ok(w.(term := Clear(w.term)))
  {
  }

  /** `toLowerCase` folds the Kelvin sign to `k`, so `\U{212A}ill` runs `kill`. */
  lemma KelvinRunsKill(w: World, command: string, svc: Services, c: Constants)
    requires w.term.action.None? && !w.tutorial.isRunning && w.player.currentServer in w.servers
    requires svc.parseCommand(command) == [Str([Kelvin] + "ill")] && !svc.isFilePath([Kelvin] + "ill")
    ensures ExecuteCommand(w, command, svc, c) == Ok(svc.handler("kill", [], w))
  {
    var name := [Kelvin] + "ill";
    assert ToLower(name) == "kill" by {
      assert forall i :: 1 <= i < |name| ==> !('A' <= name[i] <= 'Z') && name[i] != Kelvin;
    }
    assert "kill" in CommandNames;
    assert svc.parseCommand(command)[1..] == [];
    assert Route(w, command, svc, c) == Ok(Routed(w, Invoke("kill", [])));
  }

  /** What `commands[key]` yields on the command table as written, a plain
      object: its own entries, but also the two lower-case members every
      object inherits. */
  datatype Lookup = Own(key: string) | InheritedConstructor | InheritedPrototype | Missing

  function LookupAsWritten(key: string): (r: Lookup)
    ensures r.Own? <==> key in CommandNames
    ensures r.Missing? <==> key !in CommandNames && key != "constructor" && key != "__proto__"
  {
    if key in CommandNames then Own(key)
    else if key == "constructor" then InheritedConstructor
    else if key == "__proto__" then InheritedPrototype
    else Missing
  }

  /** The name-lookup tail of `executeCommand` as written: the inherited
      `constructor` (the `Object` function) is called like a handler and
      does nothing, and the inherited `__proto__` is not callable at all. */
  function InvokeAsWritten(w: World, name: string, args: seq<Token>, svc: Services, c: Constants): (r: Outcome<World>)
    // only `__proto__` raises, and `constructor` silently does nothing
    ensures r.Fault? <==> ToLower(name) == "__proto__"
    ensures ToLower(name) == "constructor" ==> r == Ok(w)
    // any other name outside the table is reported as not found
    ensures ToLower(name) !in CommandNames && ToLower(name) != "constructor" && ToLower(name) != "__proto__" ==>
              r == Ok(Say(w, CommandNotFound(name), Error, c))
  {
    match LookupAsWritten(ToLower(name))
    case Own(key) =>
      if key == "clear" || key == "cls" then Ok(w.(term := Clear(w.term))) else Ok(svc.handler(key, args, w))
    case InheritedConstructor => Ok(w)
    case InheritedPrototype => Fault("f is not a function")
    case Missing => Ok(Say(w, CommandNotFound(name), Error, c))
  }

  /** `Constructor` lower-cases to the inherited member's name, and `__proto__` is already lower case. */
  lemma LowerInherited()
    ensures ToLower("Constructor") == "constructor" && ToLower("__proto__") == "__proto__"
  {
    var name := "Constructor";
    assert name[0] == Upper[2];
    assert forall i :: 1 <= i < |name| ==> !('A' <= name[i] <= 'Z') && name[i] != Kelvin;
    var proto := "__proto__";
    assert forall i :: 0 <= i < |proto| ==> !('A' <= proto[i] <= 'Z') && proto[i] != Kelvin;
  }

  /** As written, `Constructor` is not in the table, yet it prints no
      "not found" error and changes nothing; `__proto__` raises. */
  lemma ConstructorSlipsThrough(w: World, args: seq<Token>, svc: Services, c: Constants)
    ensures ToLower("Constructor") == "constructor" && "constructor" !in CommandNames
    ensures InvokeAsWritten(w, "Constructor", args, svc, c) == Ok(w)
    ensures InvokeAsWritten(w, "__proto__", args, svc, c).Fault?
  {
    LowerInherited();
    assert "constructor" !in CommandNames;
    assert "__proto__" !in CommandNames;
    assert LookupAsWritten("constructor") == InheritedConstructor;
    assert LookupAsWritten("__proto__") == InheritedPrototype;
  }

  /** With the table's own entries only, `Constructor` is reported as not found. */
  lemma ConstructorNotFound(w: World, command: string, svc: Services, c: Constants)
    requires w.term.action.None? && !w.tutorial.isRunning && w.player.currentServer in w.servers
    requires svc.parseCommand(command) == [Str("Constructor")] && !svc.isFilePath("Constructor")
    ensures Route(w, command, svc, c) == Ok(Routed(Say(w, CommandNotFound("Constructor"), Error, c), Nothing))
  {
    LowerInherited();
    UnknownCommandNotFound(w, command, svc, c);
  }

  /** The loop over the parsed commands of a batch; a fault ends the batch. */
  function RunAll(w: World, commands: seq<string>, svc: Services, c: Constants): Outcome<World>
    decreases |commands|
  {
    if |commands| == 0 then Ok(w)
    else
      match ExecuteCommand(w, commands[0], svc, c)
      case Fault(e) => Fault(e)
      case Ok(w1) => RunAll(w1, commands[1..], svc, c)
  }

  function BusyLines(commands: seq<string>): (r: seq<Record>)
    ensures |r| == |commands|
    ensures forall i :: 0 <= i < |r| ==> r[i] == Output(BusyWith(commands[i]), Error)
  {
    seq(|commands|, i requires 0 <= i < |commands| => Output(BusyWith(commands[i]), Error))
  }

  /** While an action runs, a whole batch only prints one error per command:
      the running timer and everything else stay as they were. */
  lemma {:induction false} BusyBatchRefused(w: World, commands: seq<string>, svc: Services, c: Constants)
    requires w.term.action.Some?
    ensures RunAll(w, commands, svc, c)
            == Ok(w.(term := w.term.(outputHistory := AppendAll(w.term.outputHistory, BusyLines(commands), c.maxTerminalCapacity))))
    decreases |commands|
  {
    if |commands| > 0 {
      var w1 := Say(w, BusyWith(commands[0]), Error, c);
      BusyBatchRefused(w1, commands[1..], svc, c);
      assert BusyLines(commands)[1..] == BusyLines(commands[1..]);
    }
  }

  /** `executeCommands`: record the batch in the history, then run its commands. */
  function ExecuteCommands(w: World, commands: string, svc: Services, c: Constants): (r: Outcome<World>)
    // the batch is recorded before any of its commands runs, so an empty batch only records it
    ensures |svc.parseCommands(commands)| == 0 ==>
              var h := RecordHistory(w.term.commandHistory, commands);
              r == Ok(w.(term := w.term.(commandHistory := h.0, commandHistoryIndex := h.1)))
    // the first command runs on the world with the batch recorded
    ensures 0 < |svc.parseCommands(commands)| ==>
              var h := RecordHistory(w.term.commandHistory, commands);
              var first := ExecuteCommand(w.(term := w.term.(commandHistory := h.0, commandHistoryIndex := h.1)),
                                          svc.parseCommands(commands)[0], svc, c);
              first.Fault? ==> r == first
    // after a successful first command the rest run in order, each on the world the previous one left
    ensures 0 < |svc.parseCommands(commands)| ==>
              var h := RecordHistory(w.term.commandHistory, commands);
              var first := ExecuteCommand(w.(term := w.term.(commandHistory := h.0, commandHistoryIndex := h.1)),
                                          svc.parseCommands(commands)[0], svc, c);
              first.Ok? ==> r == RunAll(first.value, svc.parseCommands(commands)[1..], svc, c)
  {
    var h := RecordHistory(w.term.commandHistory, commands);
    RunAll(w.(term := w.term.(commandHistory := h.0, commandHistoryIndex := h.1)), svc.parseCommands(commands), svc, c)
  }

  /** No command handler touches the command history or its cursor. */
  ghost predicate HandlersKeepHistory(svc: Services)
  {
    forall key, args, w :: svc.handler(key, args, w).term.commandHistory == w.term.commandHistory
                           && svc.handler(key, args, w).term.commandHistoryIndex == w.term.commandHistoryIndex
  }

  /** Running a batch's commands leaves the history and its cursor as they were,
      when no handler touches them. */
  lemma {:induction false} RunAllKeepsHistory(w: World, commands: seq<string>, svc: Services, c: Constants)
    requires HandlersKeepHistory(svc)
    ensures RunAll(w, commands, svc, c).Ok? ==>
              && RunAll(w, commands, svc, c).value.term.commandHistory == w.term.commandHistory
              && RunAll(w, commands, svc, c).value.term.commandHistoryIndex == w.term.commandHistoryIndex
    decreases |commands|
  {
    if |commands| > 0 {
      var first := ExecuteCommand(w, commands[0], svc, c);
      if first.Ok? {
        RunAllKeepsHistory(first.value, commands[1..], svc, c);
      }
    }
  }

  /** A batch is recorded once, before its commands run: when no handler
      touches the history, a completed batch leaves exactly the recorded
      history and cursor. */
  lemma BatchRecordsHistory(w: World, commands: string, svc: Services, c: Constants)
    requires HandlersKeepHistory(svc)
    ensures var h := RecordHistory(w.term.commandHistory, commands);
            var r := ExecuteCommands(w, commands, svc, c);
            r.Ok? ==> r.value.term.commandHistory == h.0 && r.value.term.commandHistoryIndex == h.1
  {
    var h := RecordHistory(w.term.commandHistory, commands);
    RunAllKeepsHistory(w.(term := w.term.(commandHistory := h.0, commandHistoryIndex := h.1)), svc.parseCommands(commands), svc, c);
  }

  /** Submitting a batch while an action runs only records it in the history
      and refuses each of its commands. */
  lemma BatchWhileBusy(w: World, commands: string, svc: Services, c: Constants)
    requires w.term.action.Some?
    ensures var h := RecordHistory(w.term.commandHistory, commands);
            var busy := BusyLines(svc.parseCommands(commands));
            ExecuteCommands(w, commands, svc, c)
            == Ok(w.(term := w.term.(commandHistory := h.0, commandHistoryIndex := h.1,
                                     outputHistory := AppendAll(w.term.outputHistory, busy, c.maxTerminalCapacity))))
  {
    var h := RecordHistory(w.term.commandHistory, commands);
    BusyBatchRefused(w.(term := w.term.(commandHistory := h.0, commandHistoryIndex := h.1)), svc.parseCommands(commands), svc, c);
  }
}

=== FILE: outputlog.dfy ===
/** The terminal's output log: an append-only buffer bounded by a capacity,
    which evicts its oldest entries first. */
module OutputLog {

  /** The last `cap` elements of `s`, or all of `s` when it is not longer than `cap`. */
  function Window<T>(s: seq<T>, cap: nat): (r: seq<T>)
    ensures |r| == if |s| <= cap then |s| else cap
    ensures forall i :: 0 <= i < |r| ==> r[i] == s[|s| - |r| + i]
  {
    if |s| <= cap then s else s[|s| - cap..]
  }

  /** Pushes `item`, then splices away the oldest entries beyond `cap`. */
  function Append<T>(log: seq<T>, item: T, cap: nat): (r: seq<T>)
    ensures |r| == if |log| < cap then |log| + 1 else cap
    ensures 0 < cap ==> r[|r| - 1] == item
    ensures forall i :: 0 <= i < |r| - 1 ==> r[i] == log[|log| - (|r| - 1) + i]
  {
    var s := log + [item];
    if |s| > cap then s[|s| - cap..] else s
  }

  /** Appends the items one at a time, in order. */
  function AppendAll<T>(log: seq<T>, items: seq<T>, cap: nat): (r: seq<T>)
    // a non-empty batch leaves everything, or exactly `cap` records, with its own last item last
    ensures 0 < |items| ==> |r| == if |log| + |items| <= cap then |log| + |items| else cap
    ensures 0 < |items| && 0 < cap ==> r[|r| - 1] == items[|items| - 1]
    decreases |items|
  {
    if |items| == 0 then log else AppendAll(Append(log, items[0], cap), items[1..], cap)
  }

  lemma AppendIsWindow<T>(log: seq<T>, item: T, cap: nat)
    ensures Append(log, item, cap) == Window(log + [item], cap)
  {
  }

  lemma WindowOfWindow<T>(s: seq<T>, t: seq<T>, cap: nat)
    ensures Window(Window(s, cap) + t, cap) == Window(s + t, cap)
  {
    var a := Window(Window(s, cap) + t, cap);
    var b := Window(s + t, cap);
    assert |a| == |b|;
    forall i | 0 <= i < |a|
      ensures a[i] == b[i]
    {
      var u := Window(s, cap) + t;
      if |u| - |a| + i < |Window(s, cap)| {
        assert a[i] == Window(s, cap)[|u| - |a| + i];
      } else {
        assert a[i] == t[|u| - |a| + i - |Window(s, cap)|];
      }
    }
  }

  /** Appending a batch keeps exactly the `cap` most recent records, oldest first. */
  lemma {:induction false} AppendAllKeepsNewest<T>(log: seq<T>, items: seq<T>, cap: nat)
    requires |log| <= cap || 0 < |items|
    ensures AppendAll(log, items, cap) == Window(log + items, cap)
    decreases |items|
  {
    if |items| == 0 {
      assert log + items == log;
    } else {
      var next := Append(log, items[0], cap);
      AppendIsWindow(log, items[0], cap);
      AppendAllKeepsNewest(next, items[1..], cap);
      WindowOfWindow(log + [items[0]], items[1..], cap);
      assert log + [items[0]] + items[1..] == log + items;
    }
  }

  /** The capacity bound is an invariant of appending. */
  lemma {:induction false} AppendAllBounded<T>(log: seq<T>, items: seq<T>, cap: nat)
    requires |log| <= cap
    ensures |AppendAll(log, items, cap)| <= cap
    ensures |AppendAll(log, items, cap)| == if |log| + |items| <= cap then |log| + |items| else cap
  {
    AppendAllKeepsNewest(log, items, cap);
  }
}

=== FILE: resolvers.dfy ===
/** The five kind-specific resolvers run when a timed action finishes:
    finishHack, finishGrow, finishWeaken, finishBackdoor and finishAnalyze.
    Each takes the target server and the player and returns them as changed,
    with the lines it prints and the outside hooks it fires. */
module Resolvers {
  import opened Results
  import opened TerminalState

  datatype Resolution = Resolution(server: Server, player: Player, lines: seq<Record>, hooks: seq<Hook>)

  /** What a resolver leaves when it does nothing at all. */
  function Inert(s: Server, p: Player): Resolution
  {
    Resolution(s, p, [], [])
  }

  /** Number of threads a terminal grow counts as. */
  const TerminalGrowThreads: real := 25.0

  /** The money a successful terminal hack takes: the floor of the hacked share,
      never negative. */
  function HackMoney(available: real, percent: real, mult: real): (gained: int)
    ensures 0 <= gained
    ensures 0 < gained ==> gained as real <= available * (percent * mult) < gained as real + 1.0
    ensures gained == 0 <==> available * (percent * mult) < 1.0
  {
    var g := (available * (percent * mult)).Floor;
    if g <= 0 then 0 else g
  }

  lemma HackMoneyExample()
    ensures HackMoney(1000.0, 0.1, 1.0) == 100
  {
    assert 1000.0 * (0.1 * 1.0) == 100.0;
  }

  function Line(m: Msg): Record
  {
    Output(m, Primary)
  }

  function ResolveHack(s: Server, p: Player, cancelled: bool, rand: real, f: Formulas, c: Constants): (r: Outcome<Resolution>)
    ensures cancelled ==> r == Ok(Inert(s, p))
    ensures !cancelled && s.kind == Hacknet ==> r == Ok(Resolution(s, p, [Output(WrongServerKind("hack"), Error)], []))
    ensures r.Fault? <==> !cancelled && s.kind == OtherKind
    // money moves from the server to the player, and never the other way
    ensures r.Ok? ==> r.value.server.moneyAvailable + r.value.player.money == s.moneyAvailable + p.money
    ensures r.Ok? ==> r.value.server.moneyAvailable <= s.moneyAvailable
    ensures r.Ok? ==> r.value.server.hostname == s.hostname && r.value.player.bitNodeN == p.bitNodeN
  {
    if cancelled then Ok(Inert(s, p))
    else match s.kind
      case Hacknet => Ok(Resolution(s, p, [Output(WrongServerKind("hack"), Error)], []))
      case OtherKind => Fault("server should be normal server")
      case Standard =>
      var chance := f.hackingChance(s, p);
      var expOnSuccess := f.hackingExpGain(s, p);
      var expOnFailure := expOnSuccess / 4.0;
      if rand < chance then
        var breached := s.(backdoorInstalled := true);
        if breached.hostname == c.worldDaemon then
          Ok(Resolution(breached, p, [], [ToBitVerse]))
        else
          var gained := HackMoney(breached.moneyAvailable, f.percentMoneyHacked(breached, p), c.manualHackMoney);
          var drained := breached.(moneyAvailable := breached.moneyAvailable - gained as real);
          var fortified := drained.(hackDifficulty := f.fortify(drained, c.serverFortifyAmount));
          var p' := p.(money := p.money + gained as real,
                       hackingExp := p.hackingExp + expOnSuccess,
                       intelligenceExp := p.intelligenceExp + expOnSuccess / c.intelligenceTerminalHackBaseExpGain);
          Ok(Resolution(fortified, p',
                        [Line(HackSucceeded(s.hostname, gained, expOnSuccess)),
                         Line(SecurityIncreased(s.hostname, drained.hackDifficulty, fortified.hackDifficulty))],
                        [CheckFactionInvitations]))
      else
        Ok(Resolution(s, p.(hackingExp := p.hackingExp + expOnFailure), [Line(HackFailed(s.hostname, expOnFailure))], []))
  }

  /** A successful hack on an ordinary server: the floored, clamped amount
      leaves the server and reaches the player, who also gains the success exp. */
  lemma HackSuccessTransfersMoney(s: Server, p: Player, rand: real, f: Formulas, c: Constants)
    requires s.kind == Standard && rand < f.hackingChance(s, p) && s.hostname != c.worldDaemon
    ensures var r := ResolveHack(s, p, false, rand, f, c);
            var gained := HackMoney(s.moneyAvailable, f.percentMoneyHacked(s.(backdoorInstalled := true), p), c.manualHackMoney);
            && r.Ok?
            && r.value.server.moneyAvailable == s.moneyAvailable - gained as real
            && r.value.player.money == p.money + gained as real
            && r.value.player.hackingExp == p.hackingExp + f.hackingExpGain(s, p)
            && r.value.server.backdoorInstalled
            && r.value.server.hackDifficulty == f.fortify(s.(backdoorInstalled := true, moneyAvailable := s.moneyAvailable - gained as real), c.serverFortifyAmount)
            && r.value.hooks == [CheckFactionInvitations]
  {
  }

  /** A failed hack moves no money and grants a quarter of the success exp. */
  lemma HackFailureGrantsQuarterExp(s: Server, p: Player, rand: real, f: Formulas, c: Constants)
    requires s.kind == Standard && f.hackingChance(s, p) <= rand
    ensures var r := ResolveHack(s, p, false, rand, f, c);
            && r.Ok?
            && r.value.server == s
            && r.value.player.money == p.money
            && r.value.player.hackingExp - p.hackingExp == f.hackingExpGain(s, p) / 4.0
            && r.value.hooks == []
  {
  }

  /** A successful hack of the world daemon only installs the backdoor and leaves for the BitVerse. */
  lemma HackOfWorldDaemon(s: Server, p: Player, rand: real, f: Formulas, c: Constants)
    requires s.kind == Standard && rand < f.hackingChance(s, p) && s.hostname == c.worldDaemon
    ensures ResolveHack(s, p, false, rand, f, c) == Ok(Resolution(s.(backdoorInstalled := true), p, [], [ToBitVerse]))
  {
  }

  function ResolveGrow(s: Server, p: Player, cancelled: bool, f: Formulas): (r: Outcome<Resolution>)
    ensures cancelled ==> r == Ok(Inert(s, p))
    // a hacknet server only gets the error line
    ensures !cancelled && s.kind == Hacknet ==> r == Ok(Resolution(s, p, [Output(WrongServerKind("grow"), Error)], []))
    ensures r.Fault? <==> !cancelled && s.kind == OtherKind
    // only the server's money and security change, and the player only gains hacking exp
    ensures r.Ok? ==> r.value.server == s.(moneyAvailable := r.value.server.moneyAvailable, hackDifficulty := r.value.server.hackDifficulty)
    ensures r.Ok? ==> r.value.player == p.(hackingExp := r.value.player.hackingExp) && r.value.hooks == []
    ensures r.Ok? && !cancelled && s.kind == Standard ==>
              var g := f.singleServerGrowth(s, TerminalGrowThreads, s.cpuCores);
              && r.value.server.moneyAvailable == g.money
              && r.value.server.hackDifficulty == g.security
              && r.value.player.hackingExp == p.hackingExp + f.hackingExpGain(s, p)
              && r.value.lines == [Line(MoneyGrown(s.hostname, g.factor - 1.0, f.hackingExpGain(s, p))),
                                   Line(SecurityIncreased(s.hostname, s.hackDifficulty, g.security))]
  {
    if cancelled then Ok(Inert(s, p))
    else match s.kind
      case Hacknet => Ok(Resolution(s, p, [Output(WrongServerKind("grow"), Error)], []))
      case OtherKind => Fault("server should be normal server")
      case Standard =>
      var expGain := f.hackingExpGain(s, p);
      var g := f.singleServerGrowth(s, TerminalGrowThreads, s.cpuCores);
      var grown := s.(moneyAvailable := g.money, hackDifficulty := g.security);
      Ok(Resolution(grown, p.(hackingExp := p.hackingExp + expGain),
                    [Line(MoneyGrown(s.hostname, g.factor - 1.0, expGain)),
                     Line(SecurityIncreased(s.hostname, s.hackDifficulty, grown.hackDifficulty))],
                    []))
  }

  function ResolveWeaken(s: Server, p: Player, cancelled: bool, f: Formulas, c: Constants): (r: Outcome<Resolution>)
    ensures cancelled ==> r == Ok(Inert(s, p))
    // a hacknet server only gets the error line
    ensures !cancelled && s.kind == Hacknet ==> r == Ok(Resolution(s, p, [Output(WrongServerKind("weaken"), Error)], []))
    ensures r.Fault? <==> !cancelled && s.kind == OtherKind
    // only the server's security changes, and the player only gains hacking exp
    ensures r.Ok? ==> r.value.server == s.(hackDifficulty := r.value.server.hackDifficulty)
    ensures r.Ok? ==> r.value.player == p.(hackingExp := r.value.player.hackingExp) && r.value.hooks == []
    ensures r.Ok? && !cancelled && s.kind == Standard ==>
              && r.value.server.hackDifficulty == f.weaken(s, c.serverWeakenAmount)
              && r.value.player.hackingExp == p.hackingExp + f.hackingExpGain(s, p)
              && r.value.lines == [Line(SecurityDecreased(s.hostname, s.hackDifficulty, f.weaken(s, c.serverWeakenAmount),
                                                          s.minDifficulty, f.hackingExpGain(s, p)))]
  {
    if cancelled then Ok(Inert(s, p))
    else match s.kind
      case Hacknet => Ok(Resolution(s, p, [Output(WrongServerKind("weaken"), Error)], []))
      case OtherKind => Fault("server should be normal server")
      case Standard =>
      var expGain := f.hackingExpGain(s, p);
      var weakened := s.(hackDifficulty := f.weaken(s, c.serverWeakenAmount));
      Ok(Resolution(weakened, p.(hackingExp := p.hackingExp + expGain),
                    [Line(SecurityDecreased(s.hostname, s.hackDifficulty, weakened.hackDifficulty, weakened.minDifficulty, expGain))],
                    []))
  }

  function ResolveBackdoor(s: Server, p: Player, cancelled: bool, c: Constants): (r: Outcome<Resolution>)
    ensures cancelled ==> r == Ok(Inert(s, p))
    // a hacknet server only gets the error line, worded as for hack
    ensures !cancelled && s.kind == Hacknet ==> r == Ok(Resolution(s, p, [Output(WrongServerKind("hack"), Error)], []))
    ensures r.Fault? <==> !cancelled && s.kind == OtherKind
    // the world daemon: backdoor, a default BitNode of 1, then the BitVerse, with nothing printed
    ensures !cancelled && s.kind == Standard && s.hostname == c.worldDaemon ==>
              r == Ok(Resolution(s.(backdoorInstalled := true), if p.bitNodeN.None? then p.(bitNodeN := Some(1)) else p,
                                 [], [ToBitVerse]))
    // any other standard server: backdoor, the success line and the faction check
    ensures !cancelled && s.kind == Standard && s.hostname != c.worldDaemon ==>
              r == Ok(Resolution(s.(backdoorInstalled := true), p, [Line(BackdoorSucceeded(s.hostname))], [CheckFactionInvitations]))
    ensures r.Ok? && !cancelled && s.kind == Standard ==> r.value.server == s.(backdoorInstalled := true)
    ensures r.Ok? && (cancelled || s.kind != Standard) ==> r.value.server == s
    // the player changes at most by getting a default BitNode before the jump to the BitVerse
    ensures r.Ok? ==> r.value.player == p.(bitNodeN := r.value.player.bitNodeN)
    ensures r.Ok? && r.value.player != p ==>
              p.bitNodeN.None? && r.value.player.bitNodeN == Some(1) && s.hostname == c.worldDaemon && r.value.hooks == [ToBitVerse]
  {
    if cancelled then Ok(Inert(s, p))
    else match s.kind
      case Hacknet => Ok(Resolution(s, p, [Output(WrongServerKind("hack"), Error)], []))
      case OtherKind => Fault("server should be normal server")
      case Standard =>
      var breached := s.(backdoorInstalled := true);
      if breached.hostname == c.worldDaemon then
        var p' := if p.bitNodeN.None? then p.(bitNodeN := Some(1)) else p;
        Ok(Resolution(breached, p', [], [ToBitVerse]))
      else
        Ok(Resolution(breached, p, [Line(BackdoorSucceeded(s.hostname))], [CheckFactionInvitations]))
  }

  const PortOrder: seq<Port> := [Ssh, Ftp, Smtp, Http, Sql]

  /** The report `analyze` prints. Root access is implied for hacknet servers;
      scripts can run when there is root access and some RAM; the
      hacking-related lines exist only for standard servers. */
  function AnalyzeReport(s: Server, p: Player, f: Formulas): (lines: seq<Record>)
    ensures |lines| == if s.kind == Standard then 17 else 6
    ensures lines[0] == Line(ReportHost(s.hostname))
    ensures lines[1] == Line(ReportOrganization(if s.kind == Hacknet then "player" else s.organizationName))
    ensures lines[2] == Line(ReportRootAccess(s.kind == Hacknet || s.hasAdminRights))
    ensures lines[3] == Line(ReportCanRunScripts((s.kind == Hacknet || s.hasAdminRights) && 0.0 < s.maxRam))
    ensures s.kind != Standard ==> lines[5] == Line(ReportMoney(None))
    ensures s.kind == Standard ==> lines[10] == Line(ReportMoney(Some(s.moneyAvailable)))
    ensures s.kind == Standard ==>
              forall i :: 12 <= i < 17 ==> lines[i] == Line(ReportPort(PortOrder[i - 12], PortOrder[i - 12] in s.openPorts))
  {
    var hacknet := s.kind == Hacknet;
    var root := hacknet || s.hasAdminRights;
    var head := [Line(ReportHost(s.hostname)),
                 Line(ReportOrganization(if hacknet then "player" else s.organizationName)),
                 Line(ReportRootAccess(root)),
                 Line(ReportCanRunScripts(root && 0.0 < s.maxRam)),
                 Line(ReportRam(s.maxRam))];
    if s.kind == Standard then
      head
      + [Line(ReportBackdoor(s.backdoorInstalled)),
         Line(ReportRequiredSkill(s.requiredHackingSkill)),
         Line(ReportSecurity(s.hackDifficulty)),
         Line(ReportHackChance(f.hackingChance(s, p))),
         Line(ReportHackTime(f.hackingTime(s, p) * 1000.0))]
      + [Line(ReportMoney(Some(s.moneyAvailable)))]
      + [Line(ReportPortsRequired(s.numOpenPortsRequired))]
      + seq(5, i requires 0 <= i < 5 => Line(ReportPort(PortOrder[i], PortOrder[i] in s.openPorts)))
    else
      head + [Line(ReportMoney(None))]
  }

  function ResolveAnalyze(s: Server, p: Player, cancelled: bool, f: Formulas): (r: Resolution)
    ensures r.server == s && r.player == p && r.hooks == []
    ensures cancelled <==> r.lines == []
    // when not cancelled, the whole report is printed
    ensures !cancelled ==> r.lines == AnalyzeReport(s, p, f)
  {
    if cancelled then Inert(s, p) else Resolution(s, p, AnalyzeReport(s, p, f), [])
  }

  /** The dispatch on the action kind. */
  function Resolve(kind: ActionKind, s: Server, p: Player, cancelled: bool, rand: real, f: Formulas, c: Constants): (r: Outcome<Resolution>)
    // with `cancelled`, none of the five resolvers has any effect
    ensures cancelled ==> r == Ok(Inert(s, p))
    // only the four standard-only resolvers fault, and only on an unknown kind of server when not cancelled
    ensures r.Fault? <==> !cancelled && s.kind == OtherKind && kind != Analyze
    ensures r.Ok? ==> Line(CancelledNote) !in r.value.lines
    ensures r.Ok? ==> r.value.server.hostname == s.hostname
  {
    match kind
    case Hack => ResolveHack(s, p, cancelled, rand, f, c)
    case Grow => ResolveGrow(s, p, cancelled, f)
    case Weaken => ResolveWeaken(s, p, cancelled, f, c)
    case Backdoor => ResolveBackdoor(s, p, cancelled, c)
    case Analyze => Ok(ResolveAnalyze(s, p, cancelled, f))
  }
}

=== FILE: results.dfy ===
/** Option and the outcome of an operation that may raise an unrecoverable fault. */
module Results {

  datatype Option<+T> = None | Some(value: T)

  /** `Fault` stands for an `Error` the terminal throws: a broken invariant or a
      missing collaborator, never a user error (user errors become output lines). */
  datatype Outcome<+T> = Ok(value: T) | Fault(reason: string)
}

=== FILE: scan.dfy ===
/** `scan-analyze`: a depth-bounded depth-first walk over the server network,
    with an explicit stack of servers and a parallel stack of their depths. */
module ScanAnalyze {
  import opened Results
  import opened TerminalState
  import opened OutputLog

  /** A server taken off the stack and expanded, with the depth it was reached at. */
  datatype Expansion = Expansion(server: Server, depth: int)

  function Dashes(n: nat): (r: string)
    ensures |r| == n
    ensures forall i :: 0 <= i < n ==> r[i] == '-'
  {
    if n == 0 then "" else Dashes(n - 1) + "-"
  }

  /** Servers a scan without `all` skips: purchased servers other than home, and hacknet servers. */
  predicate Hidden(s: Server)
  {
    (s.purchasedByPlayer && s.hostname != "home") || s.kind == Hacknet
  }

  /** The indentation of an entry's title line. */
  function Title(e: Expansion): string
    requires 1 <= e.depth
  {
    Dashes((e.depth - 1) * 4)
  }

  /** The lines printed for one expanded server below the start. */
  function Entry(e: Expansion, autoLink: bool): (lines: seq<Record>)
    requires 1 <= e.depth
  {
    var title := Title(e);
    var dashes := title + "--";
    var s := e.server;
    [if autoLink then Link(title, s.hostname) else Output(ScanTitle(title + s.hostname), Primary)]
    + (if s.kind == Standard
       then [Output(ScanRootAccess(dashes, s.hasAdminRights, s.requiredHackingSkill), Primary),
             Output(ScanPortsRequired(dashes, s.numOpenPortsRequired), Primary)]
       else [])
    + [Output(ScanRam(dashes, s.maxRam), Primary), Output(Blank, Primary)]
  }

  /** An entry's title is indented by exactly (depth - 1) * 4 dashes, and its
      detail lines by two more. */
  lemma EntryIndentation(e: Expansion, autoLink: bool)
    requires 1 <= e.depth
    ensures var title := Entry(e, autoLink)[0];
            var n := (e.depth - 1) * 4;
            if autoLink then title == Link(Title(e), e.server.hostname) && |Title(e)| == n
            else title.Output? && title.msg.ScanTitle?
                 && title.msg.line[..n] == Title(e) && title.msg.line[n..] == e.server.hostname
    ensures |Title(e)| == (e.depth - 1) * 4 && forall i :: 0 <= i < |Title(e)| ==> Title(e)[i] == '-'
    ensures Entry(e, autoLink)[|Entry(e, autoLink)| - 2] == Output(ScanRam(Title(e) + "--", e.server.maxRam), Primary)
  {
    var n := (e.depth - 1) * 4;
    if !autoLink {
      var line := Title(e) + e.server.hostname;
      assert line[..n] == Title(e);
      assert line[n..] == e.server.hostname;
    }
  }

  /** Everything printed for the expansions so far; the start (depth 0) prints nothing. */
  function Report(exps: seq<Expansion>, autoLink: bool): seq<Record>
    decreases |exps|
  {
    if |exps| == 0 then []
    else
      var e := exps[|exps| - 1];
      Report(exps[..|exps| - 1], autoLink) + (if e.depth < 1 then [] else Entry(e, autoLink))
  }

  const Header: seq<Record> := [Output(ScanBanner, Primary), Output(Blank, Primary)]

  /** `b` is among `a`'s network neighbours that the registry knows. */
  ghost predicate IsNeighbor(servers: map<string, Server>, a: Server, b: Server)
  {
    exists i :: 0 <= i < |a.serversOnNetwork| && a.serversOnNetwork[i] in servers && servers[a.serversOnNetwork[i]] == b
  }

  /** Some expansion one level up has `s` as a neighbour. */
  ghost predicate HasParent(servers: map<string, Server>, exps: seq<Expansion>, s: Server, d: int)
  {
    exists j :: 0 <= j < |exps| && exps[j].depth == d - 1 && IsNeighbor(servers, exps[j].server, s)
  }

  ghost function Hostnames(servers: map<string, Server>): set<string>
  {
    set s | s in servers.Values :: s.hostname
  }

  lemma HasParentGrows(servers: map<string, Server>, exps: seq<Expansion>, e: Expansion, s: Server, d: int)
    requires HasParent(servers, exps, s, d)
    ensures HasParent(servers, exps + [e], s, d)
  {
    var j :| 0 <= j < |exps| && exps[j].depth == d - 1 && IsNeighbor(servers, exps[j].server, s);
    assert (exps + [e])[j] == exps[j];
  }

  /** Expanding one more server appends its entry, if it is below the start, to what is printed. */
  lemma ReportGrows(prefix: seq<Record>, exps: seq<Expansion>, e: Expansion, autoLink: bool)
    ensures prefix + Report(exps + [e], autoLink)
            == prefix + Report(exps, autoLink) + (if e.depth < 1 then [] else Entry(e, autoLink))
  {
    assert (exps + [e])[..|exps|] == exps;
  }

  /** The pending stack: known servers, each at least `least` deep, and each
      below the start a neighbour of an expansion one level up. */
  ghost predicate StackOk(servers: map<string, Server>, stack: seq<Server>, depths: seq<int>, least: int,
                          expanded: seq<Expansion>)
  {
    && |stack| == |depths|
    && forall k :: 0 <= k < |stack| ==>
         && stack[k] in servers.Values
         && least <= depths[k]
         && (1 <= depths[k] ==> HasParent(servers, expanded, stack[k], depths[k]))
  }

  /** Every hostname is expanded at most once. */
  predicate Distinct(exps: seq<Expansion>)
  {
    forall i, j :: 0 <= i < j < |exps| ==> exps[i].server.hostname != exps[j].server.hostname
  }

  /** The walk begins at `start`, the only expansion at depth 0. */
  predicate Rooted(start: Server, exps: seq<Expansion>)
  {
    && (0 < |exps| ==> exps[0] == Expansion(start, 0))
    && (forall i :: 0 <= i < |exps| ==> (exps[i].depth == 0 <==> i == 0))
  }

  /** Something is expanded exactly when the start itself may be: the bound
      is not negative and the start is not hidden (or `all` is set). */
  predicate Starts(start: Server, depth: int, all: bool, exps: seq<Expansion>)
  {
    0 < |exps| <==> 0 <= depth && (all || !Hidden(start))
  }

  /** Only known servers, no deeper than `depth`, and no hidden ones unless `all`. */
  predicate Bounded(servers: map<string, Server>, depth: int, all: bool, exps: seq<Expansion>)
  {
    && (forall i :: 0 <= i < |exps| ==> 0 <= exps[i].depth <= depth && exps[i].server in servers.Values)
    && (!all ==> forall i :: 0 <= i < |exps| ==> !Hidden(exps[i].server))
  }

  /** Each expansion below the start has a parent among the earlier ones. */
  ghost predicate Parented(servers: map<string, Server>, exps: seq<Expansion>)
  {
    forall i {:trigger exps[..i]} :: 0 <= i < |exps| && 0 < exps[i].depth ==> HasParent(servers, exps[..i], exps[i].server, exps[i].depth)
  }

  /** What the walk has expanded so far, as the method's postcondition states it. */
  ghost predicate ExpandedOk(servers: map<string, Server>, start: Server, depth: int, all: bool,
                             visited: set<string>, expanded: seq<Expansion>)
  {
    && visited <= Hostnames(servers)
    && (forall i :: 0 <= i < |expanded| ==> expanded[i].server.hostname in visited)
    && Distinct(expanded)
    && Rooted(start, expanded)
    && Bounded(servers, depth, all, expanded)
    && Parented(servers, expanded)
  }

  /** Popping the top of the stack keeps the rest well formed and yields a known server. */
  lemma PopKeeps(servers: map<string, Server>, stack: seq<Server>, depths: seq<int>, least: int,
                 expanded: seq<Expansion>)
    requires StackOk(servers, stack, depths, least, expanded) && 0 < |stack|
    ensures StackOk(servers, stack[..|stack| - 1], depths[..|depths| - 1], least, expanded)
    ensures var n := |stack| - 1;
            && stack[n] in servers.Values && least <= depths[n]
            && (1 <= depths[n] ==> HasParent(servers, expanded, stack[n], depths[n]))
  {
  }

  /** Expanding a server adds a parent for every server one level below it. */
  lemma StackKeeps(servers: map<string, Server>, stack: seq<Server>, depths: seq<int>, least: int,
                   expanded: seq<Expansion>, e: Expansion)
    requires StackOk(servers, stack, depths, least, expanded)
    ensures StackOk(servers, stack, depths, least, expanded + [e])
  {
    forall k | 0 <= k < |stack| && 1 <= depths[k]
      ensures HasParent(servers, expanded + [e], stack[k], depths[k])
    {
      HasParentGrows(servers, expanded, e, stack[k], depths[k]);
    }
  }

  lemma ParentsKept(servers: map<string, Server>, expanded: seq<Expansion>, e: Expansion)
    requires Parented(servers, expanded)
    requires 1 <= e.depth ==> HasParent(servers, expanded, e.server, e.depth)
    ensures Parented(servers, expanded + [e])
  {
    var after := expanded + [e];
    forall i | 0 <= i < |after| && 0 < after[i].depth
      ensures HasParent(servers, after[..i], after[i].server, after[i].depth)
    {
      if i < |expanded| {
        assert after[..i] == expanded[..i];
        assert after[i] == expanded[i];
      } else {
        assert after[..i] == expanded;
      }
    }
  }

  lemma DistinctKept(visited: set<string>, expanded: seq<Expansion>, e: Expansion)
    requires Distinct(expanded) && forall i :: 0 <= i < |expanded| ==> expanded[i].server.hostname in visited
    requires e.server.hostname !in visited
    ensures Distinct(expanded + [e])
    ensures forall i :: 0 <= i < |expanded + [e]| ==> (expanded + [e])[i].server.hostname in visited + {e.server.hostname}
  {
    var after := expanded + [e];
    assert forall i :: 0 <= i < |expanded| ==> after[i] == expanded[i];
  }

  lemma RootedKept(start: Server, expanded: seq<Expansion>, e: Expansion)
    requires Rooted(start, expanded)
    requires e.depth == 0 <==> expanded == []
    requires expanded == [] ==> e == Expansion(start, 0)
    ensures Rooted(start, expanded + [e])
  {
    var after := expanded + [e];
    assert forall i :: 0 <= i < |expanded| ==> after[i] == expanded[i];
  }

  lemma BoundedKept(servers: map<string, Server>, depth: int, all: bool, expanded: seq<Expansion>, e: Expansion)
    requires Bounded(servers, depth, all, expanded)
    requires 0 <= e.depth <= depth && e.server in servers.Values && (!all ==> !Hidden(e.server))
    ensures Bounded(servers, depth, all, expanded + [e])
  {
    var after := expanded + [e];
    assert forall i :: 0 <= i < |expanded| ==> after[i] == expanded[i];
  }

  /** Expanding a fresh server popped off the stack keeps the walk's invariant. */
  lemma ExpandKeeps(servers: map<string, Server>, start: Server, depth: int, all: bool,
                    visited: set<string>, expanded: seq<Expansion>, s: Server, d: int)
    requires ExpandedOk(servers, start, depth, all, visited, expanded)
    requires s in servers.Values && 0 <= d <= depth && s.hostname !in visited
    requires !all ==> !Hidden(s)
    requires d == 0 <==> expanded == []
    requires expanded == [] ==> s == start
    requires 1 <= d ==> HasParent(servers, expanded, s, d)
    ensures ExpandedOk(servers, start, depth, all, visited + {s.hostname}, expanded + [Expansion(s, d)])
    ensures |Hostnames(servers) - (visited + {s.hostname})| < |Hostnames(servers) - visited|
  {
    var e := Expansion(s, d);
    assert s.hostname in Hostnames(servers);
    assert Hostnames(servers) - (visited + {s.hostname}) == (Hostnames(servers) - visited) - {s.hostname};
    ParentsKept(servers, expanded, e);
    DistinctKept(visited, expanded, e);
    RootedKept(start, expanded, e);
    BoundedKept(servers, depth, all, expanded, e);
  }

  /** What expanding a server with neighbour list `hosts` pushes: the servers
      the registry knows, from the last hostname to the first, so that the
      first neighbour ends on top of the stack. */
  function Pushed(servers: map<string, Server>, hosts: seq<string>): seq<Server>
    decreases |hosts|
  {
    if |hosts| == 0 then []
    else Pushed(servers, hosts[1..]) + (if hosts[0] in servers then [servers[hosts[0]]] else [])
  }

  /** Every neighbour the registry knows is among the servers pushed for it. */
  lemma {:induction false} PushedHas(servers: map<string, Server>, hosts: seq<string>, i: int)
    requires 0 <= i < |hosts| && hosts[i] in servers
    ensures servers[hosts[i]] in Pushed(servers, hosts)
    decreases |hosts|
  {
    if 0 < i {
      assert hosts[1..][i - 1] == hosts[i];
      PushedHas(servers, hosts[1..], i - 1);
    }
  }

  /** Pushes the known neighbours of `s`, last one first, one level deeper than `d`. */
  method PushNeighbors(servers: map<string, Server>, s: Server, d: int,
                       stack: seq<Server>, depths: seq<int>, ghost done: seq<Expansion>)
    returns (stack': seq<Server>, depths': seq<int>)
    requires 0 < |done| && done[|done| - 1] == Expansion(s, d) && 0 <= d
    requires StackOk(servers, stack, depths, 1, done)
    ensures StackOk(servers, stack', depths', 1, done)
    // the old stack stays below; on top come the known neighbours in reverse order, one level deeper
    ensures stack' == stack + Pushed(servers, s.serversOnNetwork)
    ensures depths'[..|depths|] == depths
    ensures forall k :: |stack| <= k < |stack'| ==> depths'[k] == d + 1 && IsNeighbor(servers, s, stack'[k])
  {
    stack', depths' := stack, depths;
    var i := |s.serversOnNetwork|;
    while i > 0
      invariant 0 <= i <= |s.serversOnNetwork|
      invariant stack' == stack + Pushed(servers, s.serversOnNetwork[i..])
      invariant StackOk(servers, stack', depths', 1, done)
      invariant depths'[..|depths|] == depths
      invariant forall k :: |stack| <= k < |stack'| ==> depths'[k] == d + 1 && IsNeighbor(servers, s, stack'[k])
    {
      i := i - 1;
      var h := s.serversOnNetwork[i];
      assert s.serversOnNetwork[i..][1..] == s.serversOnNetwork[i + 1..];
      if h in servers {
        assert IsNeighbor(servers, s, servers[h]);
        assert HasParent(servers, done, servers[h], d + 1) by {
          assert done[|done| - 1].depth == d;
        }
        stack' := stack' + [servers[h]];
        depths' := depths' + [d + 1];
      }
    }
    assert s.serversOnNetwork[0..] == s.serversOnNetwork;
  }

  /** The state of the walk: the pending stack with its depths, the hostnames
      already expanded, the expansions in order and the lines printed so far. */
  datatype Walk = Walk(stack: seq<Server>, depths: seq<int>, visited: set<string>,
                       expanded: seq<Expansion>, lines: seq<Record>)

  /** The loop invariant of the walk from `start`. */
  ghost predicate WalkOk(servers: map<string, Server>, start: Server, depth: int, all: bool, autoLink: bool, w: Walk)
  {
    && StackOk(servers, w.stack, w.depths, if w.expanded == [] then 0 else 1, w.expanded)
    && (w.expanded == [] ==> (w.stack == [start] && w.depths == [0]) || w.stack == [])
    && ExpandedOk(servers, start, depth, all, w.visited, w.expanded)
    && w.lines == Header + Report(w.expanded, autoLink)
  }

  /** The walk with the top of its stack removed. */
  function Pop(w: Walk): Walk
    requires 0 < |w.stack| && |w.stack| == |w.depths|
  {
    w.(stack := w.stack[..|w.stack| - 1], depths := w.depths[..|w.depths| - 1])
  }

  /** Some expansion has the hostname `h`. */
  predicate Seen(exps: seq<Expansion>, h: string)
  {
    exists k :: 0 <= k < |exps| && exps[k].server.hostname == h
  }

  /** `t` is a neighbour the walk must reach from `e`: `e` is above the depth
      bound, the registry knows `t` as its neighbour, and `t` is not hidden
      (or `all` is set). */
  ghost predicate Owed(servers: map<string, Server>, depth: int, all: bool, e: Expansion, t: Server)
  {
    e.depth < depth && IsNeighbor(servers, e.server, t) && (all || !Hidden(t))
  }

  /** Every neighbour an expansion owes is itself expanded. */
  ghost predicate Closed(servers: map<string, Server>, depth: int, all: bool, exps: seq<Expansion>)
  {
    forall i, t :: 0 <= i < |exps| && Owed(servers, depth, all, exps[i], t) ==> Seen(exps, t.hostname)
  }

  /** `t` waits on the stack, no deeper than the bound. */
  predicate Pending(w: Walk, depth: int, t: Server)
  {
    exists k :: 0 <= k < |w.stack| && k < |w.depths| && w.stack[k] == t && w.depths[k] <= depth
  }

  /** The part of the walk's invariant behind `Closed`: every visited hostname
      is expanded, and every owed neighbour is expanded or still pending. */
  ghost predicate Covered(servers: map<string, Server>, depth: int, all: bool, w: Walk)
  {
    && (forall h :: h in w.visited ==> Seen(w.expanded, h))
    && forall i, t :: 0 <= i < |w.expanded| && Owed(servers, depth, all, w.expanded[i], t) ==>
         Seen(w.expanded, t.hostname) || Pending(w, depth, t)
  }

  /** Once the stack is empty, nothing owed is left unexpanded. */
  lemma CoveredClosed(servers: map<string, Server>, depth: int, all: bool, w: Walk)
    requires Covered(servers, depth, all, w) && w.stack == []
    ensures Closed(servers, depth, all, w.expanded)
  {
  }

  /** Dropping the top of the stack keeps `Covered` when the top was visited,
      too deep, or hidden without `all`. */
  lemma SkipCovers(servers: map<string, Server>, depth: int, all: bool, w: Walk)
    requires Covered(servers, depth, all, w) && 0 < |w.stack| && |w.stack| == |w.depths|
    requires var n := |w.stack| - 1;
             w.stack[n].hostname in w.visited || depth < w.depths[n] || (!all && Hidden(w.stack[n]))
    ensures Covered(servers, depth, all, Pop(w))
  {
    var n := |w.stack| - 1;
    var w' := Pop(w);
    forall i, t | 0 <= i < |w.expanded| && Owed(servers, depth, all, w.expanded[i], t) && !Seen(w.expanded, t.hostname)
      ensures Pending(w', depth, t)
    {
      var k :| 0 <= k < |w.stack| && k < |w.depths| && w.stack[k] == t && w.depths[k] <= depth;
      assert k != n;
      assert w'.stack[k] == t && w'.depths[k] == w.depths[k];
    }
  }

  /** Expanding the top of the stack keeps `Covered`: its neighbours are pushed
      one level deeper. */
  lemma ExpandCovers(servers: map<string, Server>, depth: int, all: bool, w: Walk, w': Walk)
    requires Covered(servers, depth, all, w) && 0 < |w.stack| && |w.stack| == |w.depths|
    requires var n := |w.stack| - 1;
             && w'.expanded == w.expanded + [Expansion(w.stack[n], w.depths[n])]
             && w'.visited == w.visited + {w.stack[n].hostname}
             && w'.stack == w.stack[..n] + Pushed(servers, w.stack[n].serversOnNetwork)
             && |w'.depths| == |w'.stack|
             && w'.depths[..n] == w.depths[..n]
             && forall k :: n <= k < |w'.depths| ==> w'.depths[k] == w.depths[n] + 1
    ensures Covered(servers, depth, all, w')
  {
    var n := |w.stack| - 1;
    var s := w.stack[n];
    var last := |w.expanded|;
    assert w'.expanded[last] == Expansion(s, w.depths[n]);
    forall h | h in w'.visited
      ensures Seen(w'.expanded, h)
    {
      if h in w.visited {
        var k :| 0 <= k < |w.expanded| && w.expanded[k].server.hostname == h;
        assert w'.expanded[k] == w.expanded[k];
      }
    }
    forall i, t | 0 <= i < |w'.expanded| && Owed(servers, depth, all, w'.expanded[i], t) && !Seen(w'.expanded, t.hostname)
      ensures Pending(w', depth, t)
    {
      if i < last {
        assert w'.expanded[i] == w.expanded[i];
        forall k | 0 <= k < |w.expanded|
          ensures w.expanded[k].server.hostname != t.hostname
        {
          assert w'.expanded[k] == w.expanded[k];
        }
        var k :| 0 <= k < |w.stack| && k < |w.depths| && w.stack[k] == t && w.depths[k] <= depth;
        if k == n {
          assert false;
        }
        assert w'.stack[k] == t && w'.depths[..n][k] == w.depths[..n][k];
      } else {
        var j :| 0 <= j < |s.serversOnNetwork| && s.serversOnNetwork[j] in servers && servers[s.serversOnNetwork[j]] == t;
        PushedHas(servers, s.serversOnNetwork, j);
        var pushed := Pushed(servers, s.serversOnNetwork);
        var m :| 0 <= m < |pushed| && pushed[m] == t;
        assert w'.stack[n + m] == t && w'.depths[n + m] == w.depths[n] + 1;
      }
    }
  }

  /** Skipping the server on top of the stack keeps the invariant. */
  lemma SkipKeeps(servers: map<string, Server>, start: Server, depth: int, all: bool, autoLink: bool, w: Walk)
    requires WalkOk(servers, start, depth, all, autoLink, w) && 0 < |w.stack|
    ensures WalkOk(servers, start, depth, all, autoLink, Pop(w))
  {
    PopKeeps(servers, w.stack, w.depths, if w.expanded == [] then 0 else 1, w.expanded);
  }

  /** Taking a fresh server off the stack leaves a stack that is well formed
      once the server is recorded as expanded. */
  lemma PopFresh(servers: map<string, Server>, start: Server, depth: int, all: bool, autoLink: bool, w: Walk,
                 n: nat, e: Expansion)
    requires WalkOk(servers, start, depth, all, autoLink, w) && n + 1 == |w.stack|
    requires e == Expansion(w.stack[n], w.depths[n])
    ensures 0 <= e.depth
    ensures StackOk(servers, w.stack[..n], w.depths[..n], 1, w.expanded + [e])
  {
    var least := if w.expanded == [] then 0 else 1;
    PopKeeps(servers, w.stack, w.depths, least, w.expanded);
    StackKeeps(servers, w.stack[..n], w.depths[..n], least, w.expanded, e);
  }

  /** Recording a fresh server popped off the stack as expanded keeps what the
      walk has expanded and printed consistent, and visits one more hostname. */
  lemma RecordFresh(servers: map<string, Server>, start: Server, depth: int, all: bool, autoLink: bool, w: Walk,
                    n: nat, e: Expansion)
    requires WalkOk(servers, start, depth, all, autoLink, w) && n + 1 == |w.stack|
    requires e == Expansion(w.stack[n], w.depths[n])
    requires e.server.hostname !in w.visited && e.depth <= depth && (!all ==> !Hidden(e.server))
    ensures ExpandedOk(servers, start, depth, all, w.visited + {e.server.hostname}, w.expanded + [e])
    ensures |Hostnames(servers) - (w.visited + {e.server.hostname})| < |Hostnames(servers) - w.visited|
    ensures Header + Report(w.expanded + [e], autoLink) == w.lines + (if e.depth < 1 then [] else Entry(e, autoLink))
  {
    var least := if w.expanded == [] then 0 else 1;
    PopKeeps(servers, w.stack, w.depths, least, w.expanded);
    ExpandKeeps(servers, start, depth, all, w.visited, w.expanded, e.server, e.depth);
    ReportGrows(Header, w.expanded, e, autoLink);
  }

  /** A walk that has expanded something, with a well-formed stack and a
      consistent record and printout, meets the invariant. */
  lemma WalkOkOnceStarted(servers: map<string, Server>, start: Server, depth: int, all: bool, autoLink: bool, w: Walk)
    requires w.expanded != [] && StackOk(servers, w.stack, w.depths, 1, w.expanded)
    requires ExpandedOk(servers, start, depth, all, w.visited, w.expanded)
    requires w.lines == Header + Report(w.expanded, autoLink)
    ensures WalkOk(servers, start, depth, all, autoLink, w)
  {
  }

  /** Expands the server `s` on top of the stack, at depth `d`: records it,
      prints its entry unless it is the start, and pushes its neighbours. */
  method Expand(servers: map<string, Server>, ghost start: Server, depth: int, all: bool, autoLink: bool, w: Walk)
    returns (w': Walk)
    requires WalkOk(servers, start, depth, all, autoLink, w) && 0 < |w.stack|
    requires var s := w.stack[|w.stack| - 1];
             s.hostname !in w.visited && w.depths[|w.depths| - 1] <= depth && (!all ==> !Hidden(s))
    ensures WalkOk(servers, start, depth, all, autoLink, w')
    ensures |Hostnames(servers) - w'.visited| < |Hostnames(servers) - w.visited|
    // the server is recorded as visited and expanded, and replaced on the stack by its neighbours
    ensures var n := |w.stack| - 1;
            && w'.expanded == w.expanded + [Expansion(w.stack[n], w.depths[n])]
            && w'.visited == w.visited + {w.stack[n].hostname}
            && w'.stack == w.stack[..n] + Pushed(servers, w.stack[n].serversOnNetwork)
            && |w'.depths| == |w'.stack|
            && w'.depths[..n] == w.depths[..n]
            && forall k :: n <= k < |w'.depths| ==> w'.depths[k] == w.depths[n] + 1
  {
    var n := |w.stack| - 1;
    var s := w.stack[n];
    var d := w.depths[n];
    var e := Expansion(s, d);
    var expanded := w.expanded + [e];
    PopFresh(servers, start, depth, all, autoLink, w, n, e);
    RecordFresh(servers, start, depth, all, autoLink, w, n, e);
    var stack, depths := PushNeighbors(servers, s, d, w.stack[..n], w.depths[..n], expanded);
    var lines := if d != 0 then w.lines + Entry(e, autoLink) else w.lines;
    w' := Walk(stack, depths, w.visited + {s.hostname}, expanded, lines);
    WalkOkOnceStarted(servers, start, depth, all, autoLink, w');
  }

  /** The server on top of the stack is dropped rather than expanded: it was
      already seen, is too deep, or is hidden without `all`. */
  predicate Dropped(w: Walk, depth: int, all: bool)
    requires 0 < |w.stack| && |w.stack| == |w.depths|
  {
    var n := |w.stack| - 1;
    w.stack[n].hostname in w.visited || depth < w.depths[n] || (!all && Hidden(w.stack[n]))
  }

  /** One turn of the loop: pop a server and skip it (a purchased server, one
      already seen or too deep, a hacknet server) or expand it. */
  method Step(servers: map<string, Server>, ghost start: Server, depth: int, all: bool, autoLink: bool, w: Walk)
    returns (w': Walk)
    requires WalkOk(servers, start, depth, all, autoLink, w) && 0 < |w.stack|
    requires Covered(servers, depth, all, w)
    ensures WalkOk(servers, start, depth, all, autoLink, w')
    ensures Covered(servers, depth, all, w')
    ensures || |Hostnames(servers) - w'.visited| < |Hostnames(servers) - w.visited|
            || (w'.visited == w.visited && |w'.stack| < |w.stack|)
    // a server already seen, too deep, or hidden without `all` is dropped; any other is expanded
    ensures var n := |w.stack| - 1;
            Dropped(w, depth, all) ==>
              && w'.stack == w.stack[..n] && w'.depths == w.depths[..n]
              && w'.visited == w.visited && w'.expanded == w.expanded && w'.lines == w.lines
    ensures var n := |w.stack| - 1;
            var top := Expansion(w.stack[n], w.depths[n]);
            !Dropped(w, depth, all) ==>
              && w'.expanded == w.expanded + [top]
              && w'.visited == w.visited + {top.server.hostname}
              && w'.stack == w.stack[..n] + Pushed(servers, top.server.serversOnNetwork)
              && |w'.depths| == |w'.stack|
              && w'.depths[..n] == w.depths[..n]
              && forall k :: n <= k < |w'.depths| ==> w'.depths[k] == top.depth + 1
  {
    var s := w.stack[|w.stack| - 1];
    var d := w.depths[|w.depths| - 1];
    if s.hostname in w.visited || d > depth || (!all && Hidden(s)) {
      SkipKeeps(servers, start, depth, all, autoLink, w);
      SkipCovers(servers, depth, all, w);
      w' := Pop(w);
    } else {
      w' := Expand(servers, start, depth, all, autoLink, w);
      ExpandCovers(servers, depth, all, w, w');
    }
  }

  /** The walk starts with the start server alone on the stack, at depth 0. */
  lemma StartOk(servers: map<string, Server>, start: Server, depth: int, all: bool, autoLink: bool)
    requires start in servers.Values
    ensures WalkOk(servers, start, depth, all, autoLink, Walk([start], [0], {}, [], Header))
  {
  }

  /** `executeScanAnalyzeCommand` on the registry `servers`, from the server
      named `current`. Returns the printed lines and, in order, the servers it
      expanded. */
  method Scan(servers: map<string, Server>, current: string, depth: int, all: bool, autoLink: bool)
    returns (lines: seq<Record>, expanded: seq<Expansion>)
    requires current in servers
    // the table heading always comes first, then one entry per expansion
    ensures |Header| <= |lines| && lines[..|Header|] == Header
    ensures lines == Header + Report(expanded, autoLink)
    // the walk starts at the current server, the only expansion at depth 0
    ensures Rooted(servers[current], expanded)
    // every hostname is expanded at most once, so the start is never printed
    ensures Distinct(expanded)
    // only known servers, nothing deeper than `depth`, and without `all` no
    // purchased non-home server and no hacknet server
    ensures Bounded(servers, depth, all, expanded)
    // each server below the start is a neighbour of one expanded earlier, one level up
    ensures Parented(servers, expanded)
    // the start is expanded unless the bound is negative or it is hidden
    ensures Starts(servers[current], depth, all, expanded)
    // every known, unhidden neighbour of a server above the bound is expanded too
    ensures Closed(servers, depth, all, expanded)
  {
    var start := servers[current];
    var w := Walk([start], [0], {}, [], Header);
    StartOk(servers, start, depth, all, autoLink);
    while |w.stack| != 0
      invariant WalkOk(servers, start, depth, all, autoLink, w)
      invariant Covered(servers, depth, all, w)
      invariant 0 <= depth && (all || !Hidden(start)) ==>
                  w.expanded != [] || (w.stack == [start] && w.depths == [0] && w.visited == {})
      decreases |Hostnames(servers) - w.visited|, |w.stack|
    {
      w := Step(servers, start, depth, all, autoLink, w);
    }
    CoveredClosed(servers, depth, all, w);
    lines := w.lines;
    expanded := w.expanded;
  }

  /** The command as the terminal runs it: the lines go to the log, in order. */
  method ExecuteScanAnalyze(w: World, depth: int, all: bool, c: Constants) returns (r: Outcome<World>, expanded: seq<Expansion>)
    ensures r.Fault? <==> w.player.currentServer !in w.servers
    ensures r.Ok? ==> r.value == w.(term := r.value.term)
    ensures r.Ok? ==> r.value.term == w.term.(outputHistory := r.value.term.outputHistory)
    // the log receives the banner and then one entry per expansion below the current server
    ensures r.Ok? ==>
              r.value.term.outputHistory
              == AppendAll(w.term.outputHistory, Header + Report(expanded, w.player.hasAutoLink), c.maxTerminalCapacity)
    // the expansions start at the current server and meet everything `Scan` promises
    ensures r.Ok? ==> w.player.currentServer in w.servers && Rooted(w.servers[w.player.currentServer], expanded)
    ensures r.Ok? ==> Distinct(expanded) && Bounded(w.servers, depth, all, expanded)
    ensures r.Ok? ==> Parented(w.servers, expanded) && Closed(w.servers, depth, all, expanded)
    ensures r.Ok? ==> Starts(w.servers[w.player.currentServer], depth, all, expanded)
    ensures r.Ok? && |w.term.outputHistory| <= c.maxTerminalCapacity ==>
              |r.value.term.outputHistory| <= c.maxTerminalCapacity
  {
    if w.player.currentServer !in w.servers {
      return Fault("current server missing from the registry"), [];
    }
    var lines;
    lines, expanded := Scan(w.servers, w.player.currentServer, depth, all, w.player.hasAutoLink);
    if |w.term.outputHistory| <= c.maxTerminalCapacity {
      AppendAllBounded(w.term.outputHistory, lines, c.maxTerminalCapacity);
    }
    r := Ok(w.(term := w.term.(outputHistory := AppendAll(w.term.outputHistory, lines, c.maxTerminalCapacity))));
  }
}

=== FILE: state.dfy ===
/** The data the terminal works on: its own state, the server registry and the
    player it reads and writes, the output records, and the injected formula
    services and game constants. */
module TerminalState {
  import opened Results
  import opened OutputLog

  type NonNegReal = r: real | 0.0 <= r
  type PosReal = r: real | 0.0 < r witness 1.0

  /** A token produced by the command parser: a string, a number or a boolean. */
  datatype Token = Str(text: string) | Num(number: real) | Bool(flag: bool)

  datatype Style = Primary | Error | Success | Info | Warn

  datatype Port = Ssh | Ftp | Smtp | Http | Sql

  /** The text of an output line, with its values kept raw (number
      formatting belongs to the presentation layer). */
  datatype Msg =
    | VersionBanner
      // action engine
    | AnalyzingSystem
    | ProgressBar(time: real, timeLeft: real)
    | CancelledNote
    | WrongServerKind(verb: string)
    | HackSucceeded(host: string, gained: int, exp: real)
    | HackFailed(host: string, exp: real)
    | SecurityIncreased(host: string, before: real, after: real)
    | MoneyGrown(host: string, growth: real, exp: real)
    | SecurityDecreased(host: string, before: real, after: real, floor: real, exp: real)
    | BackdoorSucceeded(host: string)
      // the report printed when an analyze finishes
    | ReportHost(host: string)
    | ReportOrganization(name: string)
    | ReportRootAccess(yes: bool)
    | ReportCanRunScripts(yes: bool)
    | ReportRam(ram: real)
    | ReportBackdoor(yes: bool)
    | ReportRequiredSkill(skill: int)
    | ReportSecurity(level: real)
    | ReportHackChance(chance: real)
    | ReportHackTime(ms: real)
    | ReportMoney(available: Option<real>)
    | ReportPortsRequired(count: int)
    | ReportPort(port: Port, open: bool)
      // scan-analyze
    | ScanBanner
    | Blank
    | ScanTitle(line: string)
    | ScanRootAccess(dashes: string, yes: bool, skill: int)
    | ScanPortsRequired(dashes: string, count: int)
    | ScanRam(dashes: string, ram: real)
      // coding contracts
    | AlreadyInProgress
    | NoSuchContract
    | ContractGone
    | ContractReward(text: string)
    | SelfDestructing
    | TriesRemaining(count: int)
    | ContractCancelled
      // dispatcher and tutorial gate
    | BusyWith(command: string)
    | TutorialBadCommand
    | TutorialWrongCommand
    | TutorialFollow
    | NotACommand(token: Token)
    | CommandNotFound(name: string)

  /** One entry of the output log: a styled line, a clickable hostname link,
      or opaque renderable content. */
  datatype Record = Output(msg: Msg, style: Style) | Link(dashes: string, hostname: string) | RawOutput(node: nat)

  /** A `Server`, a `HacknetServer`, or some other kind of `BaseServer`. */
  datatype ServerKind = Standard | Hacknet | OtherKind

  datatype Reward = Reward(rewardType: nat, name: string)

  datatype Contract = Contract(fn: string, tries: nat, maxTries: nat, reward: Option<Reward>, difficulty: real)

  datatype Server = Server(
    hostname: string,
    kind: ServerKind,
    organizationName: string,
    purchasedByPlayer: bool,
    hasAdminRights: bool,
    maxRam: real,
    cpuCores: nat,
    moneyAvailable: real,
    hackDifficulty: real,
    minDifficulty: real,
    requiredHackingSkill: int,
    numOpenPortsRequired: int,
    openPorts: set<Port>,
    backdoorInstalled: bool,
    serversOnNetwork: seq<string>,
    contracts: map<string, Contract>)

  /** The part of the player the terminal reads and writes; `gain*` calls are
      modelled as plain additions to these totals. */
  datatype Player = Player(
    currentServer: string,
    money: real,
    hackingExp: real,
    intelligenceExp: real,
    bitNodeN: Option<int>,
    hasAutoLink: bool)

  /** The five timed actions: h, g, w, b and a. */
  datatype ActionKind = Hack | Grow | Weaken | Backdoor | Analyze

  /** The in-flight action; `server` names its target in the server registry. */
  datatype Timer = Timer(time: real, timeLeft: real, kind: ActionKind, server: Option<string>)

  datatype Terminal = Terminal(
    action: Option<Timer>,
    commandHistory: seq<string>,
    commandHistoryIndex: nat,
    outputHistory: seq<Record>,
    contractOpen: bool,
    currDir: string)

  /** The steps of the interactive tutorial that the terminal gate knows about;
      every other step is `OtherStep`. */
  datatype TutorialStep =
    | TerminalHelp
    | TerminalLs
    | TerminalScan
    | TerminalScanAnalyze1
    | TerminalScanAnalyze2
    | TerminalConnect
    | TerminalAnalyze
    | TerminalNuke
    | TerminalManualHack
    | TerminalHackingMechanics
    | TerminalGoHome
    | TerminalCreateScript
    | TerminalFree
    | TerminalRunScript
    | ActiveScriptsToTerminal
    | OtherStep(name: string)

  datatype Tutorial = Tutorial(isRunning: bool, currStep: TutorialStep)

  /** Calls the resolvers make into code outside the terminal: the faction-invitation
      re-check and the jump to the BitVerse. */
  datatype Hook = CheckFactionInvitations | ToBitVerse

  datatype World = World(
    term: Terminal,
    servers: map<string, Server>,
    player: Player,
    tutorial: Tutorial,
    hooks: seq<Hook>)

  /** Result of a single-server growth: new money, new security and the growth factor. */
  datatype Growth = Growth(money: real, security: real, factor: real)

  /** The formula services the resolvers consume; their definitions are not part of this model. */
  datatype Formulas = Formulas(
    hackingChance: (Server, Player) -> real,
    hackingExpGain: (Server, Player) -> real,
    percentMoneyHacked: (Server, Player) -> real,
    hackingTime: (Server, Player) -> real,
    growTime: (Server, Player) -> real,
    weakenTime: (Server, Player) -> real,
    singleServerGrowth: (Server, real, nat) -> Growth,
    fortify: (Server, real) -> real,
    weaken: (Server, real) -> real)

  /** Game constants and settings the terminal reads. */
  datatype Constants = Constants(
    maxTerminalCapacity: nat,
    milliPerCycle: NonNegReal,
    serverFortifyAmount: real,
    serverWeakenAmount: real,
    intelligenceTerminalHackBaseExpGain: PosReal,
    manualHackMoney: real,
    worldDaemon: string)

  /** The line a fresh or cleared terminal shows. */
  const Banner: Record := Output(VersionBanner, Primary)

  /** Appends one styled line to the terminal's bounded log. */
  function Say(w: World, m: Msg, style: Style, c: Constants): (r: World)
    // the line is the newest entry, and nothing but the log changes
    ensures 0 < c.maxTerminalCapacity ==> 0 < |r.term.outputHistory| && r.term.outputHistory[|r.term.outputHistory| - 1] == Output(m, style)
    ensures r == w.(term := w.term.(outputHistory := r.term.outputHistory))
  {
    w.(term := w.term.(outputHistory := Append(w.term.outputHistory, Output(m, style), c.maxTerminalCapacity)))
  }

  /** `clear`: the log is reset to the banner alone; nothing else changes. */
  function Clear(t: Terminal): (r: Terminal)
    ensures r.outputHistory == [Banner]
    ensures r == t.(outputHistory := [Banner])
  {
    t.(outputHistory := [Output(VersionBanner, Primary)])
  }

  /** `prestige`: drops any action without resolving it, then clears. */
  function Prestige(t: Terminal): (r: Terminal)
    ensures r.action.None? && r.outputHistory == [Banner]
    ensures r.commandHistory == t.commandHistory && r.commandHistoryIndex == t.commandHistoryIndex
    ensures r.contractOpen == t.contractOpen && r.currDir == t.currDir
  {
    Clear(t.(action := None))
  }
}

=== FILE: tutorial.dfy ===
/** The interactive-tutorial gate: while the tutorial runs, each step accepts
    only certain command shapes, and most steps advance on a match. */
module TutorialGate {
  import opened TerminalState

  datatype Verdict = Reject(msg: Msg) | Accept(advance: bool)

  function Expect(ok: bool): Verdict
  {
    if ok then Accept(true) else Reject(TutorialBadCommand)
  }

  /** The switch on the current step. `noodles` is the hostname of the server
      registered as "n00dles". A parser token compares loosely equal to one of
      these non-numeric literals only when it is that very string. */
  function Gate(step: TutorialStep, args: seq<Token>, noodles: string): (r: Verdict)
    // a step the terminal does not know rejects everything with the "follow the tutorial" error
    ensures r == Reject(TutorialFollow) <==> step.OtherStep?
    // "wrong command" is reserved for a two-token command at the connect step
    ensures r == Reject(TutorialWrongCommand) ==> step == TerminalConnect && |args| == 2
    // only the hacking-mechanics step lets a command through without advancing
    ensures r.Accept? && !r.advance ==> step == TerminalHackingMechanics
  {
    match step
    case TerminalHelp => Expect(|args| == 1 && args[0] == Str("help"))
    case TerminalLs => Expect(|args| == 1 && args[0] == Str("ls"))
    case TerminalScan => Expect(|args| == 1 && args[0] == Str("scan"))
    case TerminalScanAnalyze1 => Expect(|args| == 1 && args[0] == Str("scan-analyze"))
    case TerminalScanAnalyze2 => Expect(|args| == 2 && args[0] == Str("scan-analyze") && args[1] == Num(2.0))
    case TerminalConnect =>
      if |args| == 2 then
        if args[0] == Str("connect") && (args[1] == Str("n00dles") || args[1] == Str(noodles)) then Accept(true)
        else Reject(TutorialWrongCommand)
      else Reject(TutorialBadCommand)
    case TerminalAnalyze => Expect(|args| == 1 && args[0] == Str("analyze"))
    case TerminalNuke => Expect(|args| == 2 && args[0] == Str("run") && args[1] == Str("NUKE.exe"))
    case TerminalManualHack => Expect(|args| == 1 && args[0] == Str("hack"))
    case TerminalHackingMechanics =>
      if |args| != 1 || args[0] !in [Str("grow"), Str("weaken"), Str("hack")] then Reject(TutorialBadCommand)
      else Accept(false)
    case TerminalGoHome => Expect(|args| == 1 && args[0] == Str("home"))
    case TerminalCreateScript =>
      Expect(|args| == 2 && args[0] == Str("nano") && (args[1] == Str("n00dles.script") || args[1] == Str("n00dles.js")))
    case TerminalFree => Expect(|args| == 1 && args[0] == Str("free"))
    case TerminalRunScript =>
      Expect(|args| == 2 && args[0] == Str("run") && (args[1] == Str("n00dles.script") || args[1] == Str("n00dles.js")))
    case ActiveScriptsToTerminal =>
      Expect(|args| == 2 && args[0] == Str("tail") && (args[1] == Str("n00dles.script") || args[1] == Str("n00dles.js")))
    case OtherStep(_) => Reject(TutorialFollow)
  }

  /** The same gate as a table: the command shapes each step accepts. */
  function Accepted(step: TutorialStep, noodles: string): set<seq<Token>>
  {
    match step
    case TerminalHelp => {[Str("help")]}
    case TerminalLs => {[Str("ls")]}
    case TerminalScan => {[Str("scan")]}
    case TerminalScanAnalyze1 => {[Str("scan-analyze")]}
    case TerminalScanAnalyze2 => {[Str("scan-analyze"), Num(2.0)]}
    case TerminalConnect => {[Str("connect"), Str("n00dles")], [Str("connect"), Str(noodles)]}
    case TerminalAnalyze => {[Str("analyze")]}
    case TerminalNuke => {[Str("run"), Str("NUKE.exe")]}
    case TerminalManualHack => {[Str("hack")]}
    case TerminalHackingMechanics => {[Str("grow")], [Str("weaken")], [Str("hack")]}
    case TerminalGoHome => {[Str("home")]}
    case TerminalCreateScript => {[Str("nano"), Str("n00dles.script")], [Str("nano"), Str("n00dles.js")]}
    case TerminalFree => {[Str("free")]}
    case TerminalRunScript => {[Str("run"), Str("n00dles.script")], [Str("run"), Str("n00dles.js")]}
    case ActiveScriptsToTerminal => {[Str("tail"), Str("n00dles.script")], [Str("tail"), Str("n00dles.js")]}
    case OtherStep(_) => {}
  }

  /** The gate accepts exactly the shapes of the table, and every accepted
      command advances the tutorial except at the hacking-mechanics step. */
  lemma GateMatchesTable(step: TutorialStep, args: seq<Token>, noodles: string)
    ensures Gate(step, args, noodles).Accept? <==> args in Accepted(step, noodles)
    ensures Gate(step, args, noodles).Accept? ==> Gate(step, args, noodles).advance == (step != TerminalHackingMechanics)
  {
    if |args| == 1 {
      assert args == [args[0]];
    } else if |args| == 2 {
      assert args == [args[0], args[1]];
    }
  }
}
